=== FILE: README.md ===
# Werewolf rules engine, reflection memory and card dealer in Dafny

This project models three small cores of an agent-tutorial repository and
proves properties of them:

- **The three-kingdoms werewolf game** (`framework-study/AgentScopeDemo/main.py`).
  It covers:
  - the role catalogue and the standard role mixes;
  - the majority vote and the win check;
  - the game state and its setup;
  - the werewolf, seer, witch, day and hunter phases;
  - the removal of dead players;
  - the round loop capped at ten rounds.

  Every player decision arrives already parsed, as a parameter. A `Reply`
  is `Silent` when a message is missing or empty; otherwise it carries the
  field the phase reads. Random choices are parameters as well: the
  character sample, the fallback kill index and the shuffle draws.
- **The reflection agent's short-term memory** (`Memory`, in
  `ConstructionOfClassicAgentParadigms/Reflection/Memory.py`). It is an
  append-only list of typed records, with a lookup of the latest execution
  and a rendering of the trajectory.
- **The Dou Dizhu dealer** (`Dealer`, in
  `ConstructionOfClassicAgentParadigms/ReAct/GameLandlords.py`). It builds the
  54-card deck, shuffles it (Fisher-Yates, as `random.shuffle` is), and deals
  three hands of 17 cards plus 3 bottom cards.

Players are identified by name. `setup_game` samples distinct characters,
and `get_chinese_name` returns a sampled character unchanged because all
nine are in `CHINESE_NAMES`. The moderator's round announcements are
modelled as a log of events: nightfall, the seer's result, the death notice,
daybreak, the vote result, the hunter's shot, and game over. A game is
the list of rounds it plays (`GameLoop.GameFrom`): each round is played on
the table the round before it left, and the list stops at the first round
with a verdict or after round ten. The round loop and its lemmas are stated
for any way of playing a round that keeps the promises of
`GameLoop.RoundKeeps`; `GameLoop.RoundOf(decide)` plays the rounds of
`run_game`, with `decide(k)` the decisions of round k.

Modules, one per concept:

| file | modules |
|---|---|
| `wrappers.dfy` | `Wrappers` |
| `seqs.dfy` | `Seqs` (counting, removal, subsequences), `Text` (join and split) |
| `roles.dfy` | `Roles` |
| `win_check.dfy` | `WinCheck` |
| `vote_tally.dfy` | `VoteTally` |
| `game_state.dfy` | `GameState` |
| `phases.dfy` | `Phases` |
| `game_loop.dfy` | `GameLoop` |
| `memory.dfy` | `ReflectionMemory` |
| `dealer.dfy` | `Dealer` |

Where the intended behaviour and the code differ, the model follows the
code:

- **Day vote with every player silent.** It is meant to exile
  "nobody" with zero votes. In the code, each silent player's vote is
  stored as `None`, and `Counter` counts it like any other ballot. The
  result is therefore `(None, number of voters)` (`Phases.AllAbstainExilesNone`).
  The "无人" answer only comes back when there are no voters at all.
- **`get_standard_setup` for n <= 0.** The code still returns one werewolf,
  because `max(1, n // 3)` is 1, and the model keeps that. `setup_game`
  then zips the roles with an empty sample (n = 0), or `random.sample`
  raises (n < 0), which `GameState.Setup` models as an error.

## Model

| member | source | states |
|---|---|---|
| Roles.IsVillagerTeam | framework-study/AgentScopeDemo/main.py:95-102 | a role is on the good team exactly when it is not the werewolf role |
| Roles.ParseRole | framework-study/AgentScopeDemo/main.py:28-65 | reading a role name back gives a role with that name, or no role when no catalogue name matches |
| Roles.RoleNameRoundTrip | framework-study/AgentScopeDemo/main.py:28-65 | each role's catalogue name reads back as that role, so the roles and the role strings correspond one to one |
| Roles.StandardSetup | framework-study/AgentScopeDemo/main.py:105-133 | for n >= 1 there are n roles; for n <= 0 a single werewolf. The counts match the curated table for 6, 8 and 9 players. Otherwise there are max(1, n//3) werewolves, then a Seer, a Witch and a Hunter while seats remain, then villagers. The werewolves sit first |
| Roles.GuardianOnlyAtNine | framework-study/AgentScopeDemo/main.py:105-133 | a Guardian is dealt exactly when the table has nine players |
| Roles.GeneratedSpecialRoles | framework-study/AgentScopeDemo/main.py:113-133 | a generated mix has at most one Seer, Witch and Hunter each and no Guardian. A Hunter comes only with a Witch, and a Witch only with a Seer. The werewolf count is max(1, n//3) |
| Roles.CuratedComposition | framework-study/AgentScopeDemo/main.py:107-112 | the three curated tables have n seats, the promised role counts, and the werewolves first |
| Roles.GeneratedComposition | framework-study/AgentScopeDemo/main.py:113-133 | the generated table has n seats (one werewolf when n <= 0), the promised counts, and the werewolf quota first |
| Roles.StretchCounts | framework-study/AgentScopeDemo/main.py:114-131 | werewolves, the optional specials and the remaining villagers counted role by role |
| WinCheck.WolfCountIsCount | framework-study/AgentScopeDemo/main.py:430-431 | counting werewolves player by player equals counting the werewolf role among the living players' roles |
| WinCheck.CheckWinning | framework-study/AgentScopeDemo/main.py:428-439 | the good team wins iff no living werewolf remains. The werewolves win iff one lives and they are at least half the living. Otherwise there is no verdict |
| WinCheck.MissingNamesAreVillagers | framework-study/AgentScopeDemo/main.py:430 | a living name with no recorded role counts as a villager: recording it as one changes no verdict |
| WinCheck.EmptyTableIsGoodWin | framework-study/AgentScopeDemo/main.py:433-434 | with nobody alive the good-team check fires first |
| WinCheck.ParityExamples | framework-study/AgentScopeDemo/main.py:435-436 | two werewolves against two others is a werewolf win; one against three lets the game go on |
| VoteTally.MajorityVote | framework-study/AgentScopeDemo/main.py:417-425 | with no ballots: ("无人", 0). Otherwise a cast ballot with its multiplicity, no ballot more frequent, and the first seen among the most frequent |
| VoteTally.MajorityVoteUnique | framework-study/AgentScopeDemo/main.py:417-425 | those conditions determine the tally's result: any ballot meeting them is the one returned |
| VoteTally.MajorityExample | framework-study/AgentScopeDemo/main.py:422-425 | two votes for X beat one for Y: (X, 2) |
| VoteTally.TieGoesToFirstSeen | framework-study/AgentScopeDemo/main.py:422-425 | a one-one tie goes to the ballot cast first |
| VoteTally.AbsentBallotsCanWin | framework-study/AgentScopeDemo/main.py:422-425 | `None` ballots are counted, so two of them beat one named vote |
| GameState.Assign | framework-study/AgentScopeDemo/main.py:572-588 | dealing roles to distinct names seat by seat gives an alive list equal to the names. Each name gets its role, every roster holds exactly the living holders of its roles in seat order, and both potions are held |
| GameState.EnrollFields | framework-study/AgentScopeDemo/main.py:573-588 | one enrolment records the role, seats the player last, and appends the name to its own role's roster only (Guardians to the villagers) |
| GameState.Setup | framework-study/AgentScopeDemo/main.py:560-588 | an error exactly when n < 0 or n > 9 (the sample cannot be drawn). Otherwise the alive list is the sample, each sampled character has the standard role of its seat, the rosters are consistent, and both potions are held |
| GameState.SetupRosterSizes | framework-study/AgentScopeDemo/main.py:560-588 | a fresh table has as many werewolves, seers, witches and hunters on the rosters as the standard mix prescribes |
| GameState.UpdateAlive | framework-study/AgentScopeDemo/main.py:743-754 | burying the dead one by one in order, skipping empty names, equals removing every non-empty dead name from the alive list and all rosters at once |
| GameState.BuryIsPrune | framework-study/AgentScopeDemo/main.py:747-754 | one pass of the five list comprehensions removes exactly that name from the alive list and every roster |
| GameState.UpdateAliveIdempotent | framework-study/AgentScopeDemo/main.py:743-754 | burying the same dead twice changes nothing the second time |
| GameState.UpdateAliveNoDead | framework-study/AgentScopeDemo/main.py:743-754 | a list of dead with only empty names leaves the state unchanged |
| GameState.UpdateAliveShrinks | framework-study/AgentScopeDemo/main.py:743-754 | survivors keep their order, and a player stays alive iff they were alive and not named among the dead |
| GameState.PruneConsistent | framework-study/AgentScopeDemo/main.py:743-754 | removing players keeps every roster equal to the living holders of its roles |
| GameState.WolfRosterIsWolfCount | framework-study/AgentScopeDemo/main.py:428-431 | on a consistent table the werewolf roster has as many players as the win check counts |
| GameState.FormatPlayerList | framework-study/AgentScopeDemo/main.py:442-446 | "无人" for no players. Otherwise the names joined with "、", and splitting that string at "、" gives the names back when no name contains "、" |
| Seqs.WithoutIsRemoveAll | framework-study/AgentScopeDemo/main.py:749 | the list comprehension that keeps the other names equals removing that one name, keeping order |
| Phases.KillTargets | framework-study/AgentScopeDemo/main.py:635 | the fallback targets are exactly the living players who are not on the werewolf roster |
| Phases.Fallback | framework-study/AgentScopeDemo/main.py:635-636 | a fallback target exists exactly when some living player is not a werewolf, and it is such a player |
| Phases.FallbackReachesEveryTarget | framework-study/AgentScopeDemo/main.py:636 | every valid target is a possible fallback, so the pick parameter covers exactly what `random.choice` can return |
| Phases.KillBallots | framework-study/AgentScopeDemo/main.py:627-636 | one ballot per werewolf in roster order: its named target, or the fallback when it is silent |
| Phases.WerewolfPhase | framework-study/AgentScopeDemo/main.py:595-639 | no kill without werewolves. Otherwise the kill is a ballot some werewolf cast, no ballot got more votes, and among the ballots with as many votes it was cast first |
| Phases.SilentPackKillsLivingVillager | framework-study/AgentScopeDemo/main.py:632-638 | a silent pack kills a living non-werewolf whenever one exists, and nobody otherwise |
| Phases.SplitPackFollowsFirstWolf | framework-study/AgentScopeDemo/main.py:627-638 | when two werewolves name different targets, the first werewolf's target is killed |
| Phases.SeerPhase | framework-study/AgentScopeDemo/main.py:641-667 | the seer learns something iff a seer lives and named a non-empty target. The verdict is "werewolf" iff the target's recorded role is werewolf; an unknown name reads as a villager |
| Phases.SeerSeesWolfRoster | framework-study/AgentScopeDemo/main.py:659-663 | on a consistent table the verdict on a living player says exactly whether they are on the werewolf roster |
| Phases.WitchPhase | framework-study/AgentScopeDemo/main.py:669-710 | only the potion flags change. The antidote is spent iff a living witch asked for it, held it, and someone was killed; the kill is then cancelled. The poison goes to the named target iff asked for and held, and its flag drops only when the target is non-empty |
| Phases.PotionsOnlyDeplete | framework-study/AgentScopeDemo/main.py:689-706 | a spent potion never comes back, and an empty reply changes nothing and leaves the kill standing |
| Phases.SecondAntidoteIsNoOp | framework-study/AgentScopeDemo/main.py:695-699 | once the antidote is spent, the kill always stands |
| Phases.Casualties | framework-study/AgentScopeDemo/main.py:818 | the dead are exactly the non-empty names among the two results, the first one first and the second one last, one entry per non-empty result, so a name given twice is listed twice |
| Phases.NightResolutionExamples | framework-study/AgentScopeDemo/main.py:693-709 | a saved and poisoned player dies, a saved player alone lives, and a kill plus a different poisoning both land |
| Phases.DayBallots | framework-study/AgentScopeDemo/main.py:781-790 | one ballot per living player in seat order; silence is `None` |
| Phases.DayPhase | framework-study/AgentScopeDemo/main.py:756-795 | with nobody alive: ("无人", 0). Otherwise the exiled name is a ballot some living player cast, and the count is its number of votes, between 1 and the number of voters. No ballot got more votes, and among the ballots with as many votes the exiled one was cast first |
| Phases.TallyBounds | framework-study/AgentScopeDemo/main.py:417-425 | for non-empty ballots the winning count is between 1 and their number, and the winner was cast |
| Phases.AllAbstainExilesNone | framework-study/AgentScopeDemo/main.py:781-792 | if every living player is silent, the result is (`None`, number of voters), not "无人" |
| Phases.HunterPhase | framework-study/AgentScopeDemo/main.py:712-741 | a shot happens iff a living hunter is the exiled player, replied, chose to shoot and named a non-empty target; the shot is that target |
| Phases.OnlyExiledHunterShoots | framework-study/AgentScopeDemo/main.py:712-718 | on a consistent table a shot implies that the exiled player is alive and holds the Hunter role |
| GameLoop.PlayNight | framework-study/AgentScopeDemo/main.py:808-822 | a player survives the night iff they were alive and are neither the unsaved victim nor the poisoned player. The potion flags afterwards are those the witch's turn left. The night keeps roles, survivors' order and rosters, and it announces no game over |
| GameLoop.PlayDay | framework-study/AgentScopeDemo/main.py:830-838 | a player survives the day iff they were alive and are neither the exiled player nor the hunter's target. The potion flags are unchanged, the day keeps the same invariants as the night, and it announces no game over |
| GameLoop.ExiledHunterTakesTarget | framework-study/AgentScopeDemo/main.py:830-838 | the hunter is judged before the exiled player is buried, so an exiled hunter who shoots leaves the table with the target, and the shot is announced |
| GameLoop.AfterNightfall | framework-study/AgentScopeDemo/main.py:824-844 | a verdict after the night ends the round on the night's state, with game over as the last announcement. Without a verdict, the day follows and the round ends on the table the day leaves |
| GameLoop.AfterQuietNight | framework-study/AgentScopeDemo/main.py:830-844 | the round ends on the table the day leaves, after the night's announcements. Its verdict is the win check of that table, and game over is announced iff there is a verdict |
| GameLoop.PlayRound | framework-study/AgentScopeDemo/main.py:808-844 | the verdict is the win check of the resulting table. Game over is announced iff there is a verdict, as the last event; a verdict after the night leaves the night's state. The table only shrinks and stays consistent |
| GameLoop.UndecidedNightThenDay | framework-study/AgentScopeDemo/main.py:824-844 | a round whose night leaves no verdict goes on to the day: it ends after the day, on the table the day leaves when played on the night's table |
| GameLoop.PlayRoundKeeps | framework-study/AgentScopeDemo/main.py:808-844 | one round on any table, under any decisions, only shrinks the table and keeps it consistent. Its verdict is the win check of the table it leaves, and it announces game over iff it has a verdict, as its last event |
| GameLoop.NightWinSkipsDay | framework-study/AgentScopeDemo/main.py:825-828 | when the win check on the night's table gives a verdict, the round ends after the night, and the day's votes and the hunter's decision do not affect it |
| GameLoop.GameFrom | framework-study/AgentScopeDemo/main.py:802-844 | a game from round `round` plays between 1 and `MaxGameRound - round + 1` rounds, and its first round is played on the table it starts from |
| GameLoop.PlayRoundsKeep | framework-study/AgentScopeDemo/main.py:808-844 | every round of `run_game`, on any table and under any decisions, only shrinks the table and keeps it consistent. Its verdict is the win check of the table it leaves, and it announces game over iff it has a verdict, as its last event |
| GameLoop.GameFromStep | framework-study/AgentScopeDemo/main.py:802-844 | playing the next round on the table the earlier rounds left continues the game. It ends there when that round has a verdict or is round 10; otherwise the game goes on from the table that round leaves |
| GameLoop.GameFromShape | framework-study/AgentScopeDemo/main.py:802-844 | every round of a game but the last has no verdict, and a game whose last round has no verdict played every round up to 10 |
| GameLoop.AnnouncementsSnoc | framework-study/AgentScopeDemo/main.py:806-844 | the announcements of one more round are those of the earlier rounds followed by that round's events |
| GameLoop.GameFromTable | framework-study/AgentScopeDemo/main.py:802-844 | when every round keeps its promises, a game from a consistent table ends on a shrunk, consistent copy of it, and the last round's verdict is the win check of that final table |
| GameLoop.GameFromLog | framework-study/AgentScopeDemo/main.py:802-844 | when every round keeps its promises, a game's announcements contain a game over iff its last round has a verdict, and then as their last entry |
| GameLoop.PlayFrom | framework-study/AgentScopeDemo/main.py:802-844 | the loop plays exactly the game from round 1: each round on the table the previous one left, stopping at the first verdict or after round 10. Its log is the rounds' events in order |
| GameLoop.RecordOfRounds | framework-study/AgentScopeDemo/main.py:824-846 | the record built from the last round played carries its verdict as a win in that round, or no resolution after 10 rounds. A win is the win check of the final table and is announced last as game over. The final table is a shrunk, consistent copy of the first |
| GameLoop.PlayRounds | framework-study/AgentScopeDemo/main.py:802-846 | the record belongs to the game from round 1. The outcome is a win in the last round played iff that round has a verdict, and every earlier round has none. A win is the win check of the final table, announced last as game over. Without a win, 10 rounds were played and the final table is undecided. The table only shrinks and stays consistent |
| GameLoop.RunGame | framework-study/AgentScopeDemo/main.py:797-846 | the rounds are the game played with `run_game`'s rounds from the table set up for the default six players. Every round but the last is undecided, a win comes in rounds 1 to 10 and is the win check of the final table, game over is the last log entry, and without a win 10 rounds were played. The survivors are sampled characters in sampling order, and the rosters stay exact |
| GameLoop.QuietRoundChangesNothing | framework-study/AgentScopeDemo/main.py:808-844 | a round where the pack names nobody, the witch does nothing and every vote names nobody leaves an undecided table as it was, with no verdict |
| GameLoop.QuietNightChangesNothing | framework-study/AgentScopeDemo/main.py:808-822 | a night where the pack names nobody and the witch does nothing leaves the table as it was |
| GameLoop.QuietDayChangesNothing | framework-study/AgentScopeDemo/main.py:830-838 | a day with at least one voter where every vote names nobody leaves the table as it was |
| GameLoop.StillGameFrom | framework-study/AgentScopeDemo/main.py:802-846 | when every round leaves the table as it is and without a verdict, the game plays every round up to 10, each leaving that table undecided |
| GameLoop.QuietGameRunsToCap | framework-study/AgentScopeDemo/main.py:802-846 | a game from an undecided table in which nobody can die in any round plays all 10 rounds, changes nothing and has no winner |
| ReflectionMemory.Empty | ConstructionOfClassicAgentParadigms/Reflection/Memory.py:7-9 | a new memory holds no records |
| ReflectionMemory.AddRecord | ConstructionOfClassicAgentParadigms/Reflection/Memory.py:11-21 | one more record, the earlier ones unchanged, the new one last with the given type and content |
| ReflectionMemory.NoExecutionFound | ConstructionOfClassicAgentParadigms/Reflection/Memory.py:36-44 | the backwards scan finds nothing iff no record is an execution |
| ReflectionMemory.LatestExecutionFound | ConstructionOfClassicAgentParadigms/Reflection/Memory.py:36-44 | the scan returns the content of the execution that no later execution follows |
| ReflectionMemory.LastExecutionSpec | ConstructionOfClassicAgentParadigms/Reflection/Memory.py:36-44 | for every memory, including the empty one: the last execution is `None` iff no execution was recorded, and the content of the execution no later execution follows otherwise |
| ReflectionMemory.AddExecutionIsLast | ConstructionOfClassicAgentParadigms/Reflection/Memory.py:11-44 | right after an execution is recorded, it is the last execution |
| ReflectionMemory.AddOtherKeepsLastExecution | ConstructionOfClassicAgentParadigms/Reflection/Memory.py:11-44 | recording a reflection or any other non-execution record leaves the last execution unchanged |
| ReflectionMemory.Parts | ConstructionOfClassicAgentParadigms/Reflection/Memory.py:27-32 | one part per execution or reflection record, never more parts than records |
| ReflectionMemory.NothingToRender | ConstructionOfClassicAgentParadigms/Reflection/Memory.py:23-34 | a memory with no execution or reflection records renders as the empty string |
| ReflectionMemory.TrajectoryAfterAdd | ConstructionOfClassicAgentParadigms/Reflection/Memory.py:11-34 | adding an execution or reflection appends its headed part, after a blank line if something was already rendered. Any other record leaves the trajectory unchanged |
| ReflectionMemory.PartsFollowRecords | ConstructionOfClassicAgentParadigms/Reflection/Memory.py:27-32 | the part of each rendered record is its heading plus its content, at the position given by the rendered records before it |
| Dealer.SuitedCards | ConstructionOfClassicAgentParadigms/ReAct/GameLandlords.py:25 | the comprehension yields one card per suit and rank pair |
| Dealer.SuitedCardAt | ConstructionOfClassicAgentParadigms/ReAct/GameLandlords.py:25 | suit i, rank j sits at position i * 13 + j (suit-major order) |
| Dealer.CreateDeck | ConstructionOfClassicAgentParadigms/ReAct/GameLandlords.py:23-27 | 54 cards, the last two being the small and the big joker |
| Dealer.DeckCardAt | ConstructionOfClassicAgentParadigms/ReAct/GameLandlords.py:14-27 | the card at every deck position: suit k/13, rank k%13 for the first 52, then the jokers |
| Dealer.CardNameInjective | ConstructionOfClassicAgentParadigms/ReAct/GameLandlords.py:25 | a suited card's name determines its suit and rank |
| Dealer.CreateDeckDistinct | ConstructionOfClassicAgentParadigms/ReAct/GameLandlords.py:14-27 | all 54 cards of a fresh deck are different |
| Dealer.Shuffle | ConstructionOfClassicAgentParadigms/ReAct/GameLandlords.py:29-31 | the shuffled deck is a permutation of the deck |
| Dealer.PermutationDistinct | ConstructionOfClassicAgentParadigms/ReAct/GameLandlords.py:29-31 | a permutation of distinct cards is distinct |
| Dealer.Slice | ConstructionOfClassicAgentParadigms/ReAct/GameLandlords.py:37-41 | a Python slice within bounds is the sub-sequence; it is never longer than the deck and only holds deck cards |
| Dealer.SliceDeck | ConstructionOfClassicAgentParadigms/ReAct/GameLandlords.py:33-42 | three player keys. For a 54-card deck: hands of 17, a bottom of 3, and hands A, B, C plus the bottom concatenated give the deck back |
| Dealer.SliceDeckDisjoint | ConstructionOfClassicAgentParadigms/ReAct/GameLandlords.py:36-41 | for a distinct deck no two hands share a card, and no hand shares a card with the bottom |
| Dealer.DealCards | ConstructionOfClassicAgentParadigms/ReAct/GameLandlords.py:33-42 | the kept deck is a shuffle of the old one. The deal slices it, and for 54 cards the hands and bottom hold exactly the deck's cards |
| Dealer.DealFreshDeck | ConstructionOfClassicAgentParadigms/ReAct/GameLandlords.py:14-42 | a fresh dealer deals three hands of 17 and 3 bottom cards that are pairwise disjoint and together are exactly the 54-card deck |

## Left out

- Language-model agents, prompts, `MsgHub` discussions and the pipelines are left out. Their replies become the `Decisions` parameter.
- `extract_json_from_text` is left out. Only replies that parse to a JSON object are modelled. Each field the phase reads must be a string, a flag, or absent, and the model sees it already parsed.
- The moderator's message texts and `format_player_list` over agents are left out. So are the opening line and the phase prompts: the werewolves' kill prompt (main.py:620), the seer's and the witch's wake-up calls (main.py:647, 675), the hunter's prompt (main.py:719) and the day's vote prompt (main.py:775). Some of these prompts do carry game information. The seer's and witch's calls are made only while those roles live. The hunter's prompt is made whenever the exiled player holds the hunter roster, so it reveals the hunter even when no shot follows.
- Most private notices to single players are not in the log, because the log holds the round announcements only. The one private notice that is logged is the seer's result (main.py:665-666), as `SeerLearns`. The notices left out are the role reveal at setup (main.py:551-554), the witch's notice of the night's victim (main.py:678-679), and her confirmations of the antidote (main.py:699) and the poison (main.py:705). The state changes behind them are modelled.
- The console `print` calls are left out, because they change no state. These are the note on a new memory record (Memory.py:21), the warnings on invalid replies (main.py:634, 660, 693, 729, 738, 789), and the round banners of `run_game`.
- Randomness (`random.sample`, `random.choice`, `random.shuffle`) and `get_chinese_name` are left out. They are parameters: the sample, the fallback pick, and the shuffle draws.
- `run_game`'s `try`/`except` (main.py:848) is left out, and with it a third way for a game to end: aborted, with no game-over announcement. Exceptions from agent calls are not modelled. Neither are the engine's own exceptions on malformed replies. A reply that parses to something other than a JSON object, such as `42` or a list (`json.loads` at main.py:358), makes `data.get` raise (main.py:631, 654, 695, 701, 732, 786). An unhashable ballot or seer target, such as a JSON list or object, makes `Counter` (main.py:422) or `self.roles.get` (main.py:663) raise. Each of these aborts the game at main.py:848. `RunGame` and `PlayRounds` describe only games that end in a verdict or at the round cap.
- Dealer.Shuffle: the model states that the result is a permutation. It does not prove that every permutation can be drawn.
- `Player`, the Dou Dizhu game itself, and the printing of the dealer's `__main__` block are outside the modelled core.
- Only the core is modelled. The other files of the repository (other agent paradigms, the web server, the framework studies besides the werewolf game) are outside it.

=== FILE: dealer.dfy ===
/** `Dealer` (ConstructionOfClassicAgentParadigms/ReAct/GameLandlords.py):
    the 54-card Dou Dizhu deck, its shuffle, and the deal into three hands of
    17 cards and 3 bottom cards. */
module Dealer {
  import opened Seqs

  /** A card is its display string: "<suit> <rank>" or a joker's name. */
  type Card = string

  const Suits: seq<string> := ["黑桃", "红桃", "方块", "梅花"]
  const Ranks: seq<string> := ["3", "4", "5", "6", "7", "8", "9", "10", "J", "Q", "K", "A", "2"]
  const Jokers: seq<string> := ["小王", "大王"]

  /** `f"{suit} {rank}"`. */
  function CardName(suit: string, rank: string): Card
  {
    suit + " " + rank
  }

  /** The comprehension `[f"{suit} {rank}" for suit in suits for rank in
      ranks]`: suit-major, ranks in order within each suit. */
  function SuitedCards(suits: seq<string>, ranks: seq<string>): (r: seq<Card>)
    ensures |r| == |suits| * |ranks|
  {
    if |suits| == 0 then []
    else seq(|ranks|, j requires 0 <= j < |ranks| => CardName(suits[0], ranks[j]))
         + SuitedCards(suits[1..], ranks)
  }

  /** Suit i, rank j sits at position i * |ranks| + j. */
  lemma {:induction false} SuitedCardAt(suits: seq<string>, ranks: seq<string>, i: nat, j: nat)
    requires i < |suits| && j < |ranks|
    ensures i * |ranks| + j < |SuitedCards(suits, ranks)|
    ensures SuitedCards(suits, ranks)[i * |ranks| + j] == CardName(suits[i], ranks[j])
  {
    var n := |ranks|;
    var block := seq(n, k requires 0 <= k < n => CardName(suits[0], ranks[k]));
    var rest := SuitedCards(suits[1..], ranks);
    assert SuitedCards(suits, ranks) == block + rest;
    if i == 0 {
      assert i * n + j == j;
      assert (block + rest)[j] == block[j];
    } else {
      SuitedCardAt(suits[1..], ranks, i - 1, j);
      assert i * n == (i - 1) * n + n;
      assert (block + rest)[n + ((i - 1) * n + j)] == rest[(i - 1) * n + j];
    }
  }

  /** `_create_deck`: the suited cards, then the two jokers. */
  function CreateDeck(): (deck: seq<Card>)
    ensures |deck| == 54
    ensures deck[52..] == Jokers
  {
    SuitedCards(Suits, Ranks) + Jokers
  }

  /** The card at every position of a fresh deck: suit-major for the first
      52, then the small and the big joker. */
  lemma DeckCardAt(k: nat)
    requires k < 54
    ensures k < 52 ==> CreateDeck()[k] == CardName(Suits[k / 13], Ranks[k % 13])
    ensures k >= 52 ==> CreateDeck()[k] == Jokers[k - 52]
  {
    var deck := CreateDeck();
    if k < 52 {
      SuitedCardAt(Suits, Ranks, k / 13, k % 13);
      assert (k / 13) * |Ranks| + k % 13 == k;
    } else {
      assert deck[52..][k - 52] == deck[k];
    }
  }

  // ------------------------------------------------------ distinct cards

  /** A suit name is two characters and none of them is a space. */
  lemma SuitShape(i: nat)
    requires i < |Suits|
    ensures |Suits[i]| == 2 && ' ' !in Suits[i]
  {
  }

  /** The name of a suited card determines its suit and its rank. */
  lemma CardNameInjective(s1: string, r1: string, s2: string, r2: string)
    requires |s1| == 2 && |s2| == 2
    requires CardName(s1, r1) == CardName(s2, r2)
    ensures s1 == s2 && r1 == r2
  {
    assert CardName(s1, r1)[..2] == s1;
    assert CardName(s2, r2)[..2] == s2;
    assert CardName(s1, r1)[3..] == r1;
    assert CardName(s2, r2)[3..] == r2;
  }

  lemma SuitsDistinct()
    ensures Distinct(Suits)
  {
  }

  lemma RanksDistinct()
    ensures Distinct(Ranks)
  {
    forall i, j | 0 <= i < j < |Ranks| ensures Ranks[i] != Ranks[j] {
      if |Ranks[i]| == |Ranks[j]| && |Ranks[i]| == 1 {
        assert Ranks[i][0] != Ranks[j][0];
      }
    }
  }

  /** All 54 cards of a fresh deck are different. */
  lemma CreateDeckDistinct()
    ensures Distinct(CreateDeck())
  {
    var deck := CreateDeck();
    SuitsDistinct();
    RanksDistinct();
    forall a, b | 0 <= a < b < |deck| ensures deck[a] != deck[b] {
      DeckCardAt(a);
      DeckCardAt(b);
      if b < 52 {
        SuitShape(a / 13);
        SuitShape(b / 13);
        if deck[a] == deck[b] {
          CardNameInjective(Suits[a / 13], Ranks[a % 13], Suits[b / 13], Ranks[b % 13]);
        }
      } else if a < 52 {
        SuitShape(a / 13);
        assert |deck[a]| >= 3 && |deck[b]| == 2;
      }
    }
  }

  // ------------------------------------------------------------- shuffle

  /** Swapping two positions keeps the cards. */
  lemma SwapKeepsCards(s: seq<Card>, i: nat, j: nat)
    requires i < |s| && j < |s|
    ensures multiset(s[i := s[j]][j := s[i]]) == multiset(s)
  {
    var t := s[i := s[j]];
    assert multiset(t) == multiset(s) - multiset{s[i]} + multiset{s[j]};
    assert multiset(t[j := s[i]]) == multiset(t) - multiset{t[j]} + multiset{s[i]};
  }

  /** `random.shuffle`, which is the Fisher-Yates shuffle: for i from the top
      down to 1 the card at i is swapped with the one at a random position
      j <= i. The random source is the parameter `draw`, whose value at i is
      reduced into 0..i. */
  method Shuffle(deck: seq<Card>, draw: nat -> nat) returns (r: seq<Card>)
    ensures |r| == |deck|
    ensures multiset(r) == multiset(deck)
  {
    r := deck;
    var i := |deck|;
    while i > 1
      invariant 0 <= i <= |deck|
      invariant |r| == |deck|
      invariant multiset(r) == multiset(deck)
    {
      i := i - 1;
      var j := draw(i) % (i + 1);
      SwapKeepsCards(r, i, j);
      r := r[i := r[j]][j := r[i]];
    }
  }

  /** Distinct cards are exactly cards that occur at most once. */
  lemma {:induction false} DistinctAtMostOnce(s: seq<Card>)
    requires Distinct(s)
    ensures forall c :: multiset(s)[c] <= 1
  {
    if |s| > 0 {
      assert Distinct(s[1..]) by {
        forall i, j | 0 <= i < j < |s[1..]| ensures s[1..][i] != s[1..][j] {
          assert s[1..][i] == s[i + 1] && s[1..][j] == s[j + 1];
        }
      }
      DistinctAtMostOnce(s[1..]);
      assert s == [s[0]] + s[1..];
      assert s[0] !in s[1..] by {
        forall k | 0 <= k < |s[1..]| ensures s[1..][k] != s[0] {
          assert s[1..][k] == s[k + 1];
        }
      }
    }
  }

  lemma AtMostOnceDistinct(s: seq<Card>)
    requires forall c :: multiset(s)[c] <= 1
    ensures Distinct(s)
  {
    forall i, j | 0 <= i < j < |s| ensures s[i] != s[j] {
      assert s == s[..j] + s[j..];
      assert multiset(s) == multiset(s[..j]) + multiset(s[j..]);
      assert s[i] in s[..j] && s[j] in s[j..];
      assert multiset(s[..j])[s[i]] >= 1 && multiset(s[j..])[s[j]] >= 1;
      assert multiset(s)[s[i]] <= 1;
      assert multiset(s)[s[i]] == multiset(s[..j])[s[i]] + multiset(s[j..])[s[i]];
    }
  }

  /** A permutation keeps the cards distinct. */
  lemma PermutationDistinct(a: seq<Card>, b: seq<Card>)
    requires multiset(a) == multiset(b) && Distinct(a)
    ensures Distinct(b)
  {
    DistinctAtMostOnce(a);
    AtMostOnceDistinct(b);
  }

  // ---------------------------------------------------------------- deal

  /** Python's `s[lo:hi]` for non-negative bounds: both ends are clamped to
      the length and an inverted range is empty. */
  function Slice(s: seq<Card>, lo: nat, hi: nat): (r: seq<Card>)
    ensures |s| >= hi && hi >= lo ==> r == s[lo..hi]
    ensures |r| <= |s|
    ensures forall c :: c in r ==> c in s
  {
    var a := if lo <= |s| then lo else |s|;
    var b := if hi <= |s| then hi else |s|;
    if a <= b then s[a..b] else []
  }

  const HandA: string := "A玩家"
  const HandB: string := "B玩家"
  const HandC: string := "C玩家"

  datatype Deal = Deal(hands: map<string, seq<Card>>, bottom: seq<Card>)

  /** The slicing half of `deal`: cards 0-16, 17-33 and 34-50 to the three
      players, cards 51-53 to the bottom. */
  function SliceDeck(deck: seq<Card>): (r: Deal)
    ensures r.hands.Keys == {HandA, HandB, HandC}
    ensures |deck| == 54 ==>
      && |r.hands[HandA]| == 17 && |r.hands[HandB]| == 17 && |r.hands[HandC]| == 17
      && |r.bottom| == 3
      && r.hands[HandA] + r.hands[HandB] + r.hands[HandC] + r.bottom == deck
  {
    SlicesCover(deck);
    Deal(map[HandA := Slice(deck, 0, 17), HandB := Slice(deck, 17, 34), HandC := Slice(deck, 34, 51)],
         Slice(deck, 51, 54))
  }

  lemma SlicesCover(deck: seq<Card>)
    ensures |deck| == 54 ==> deck[0..17] + deck[17..34] + deck[34..51] + deck[51..54] == deck
  {
    if |deck| == 54 {
      assert deck[0..17] + deck[17..34] + deck[34..51] + deck[51..54] == deck;
    }
  }

  /** Two non-overlapping stretches of a distinct deck share no card. */
  lemma StretchesDisjoint(deck: seq<Card>, lo1: nat, hi1: nat, lo2: nat, hi2: nat)
    requires Distinct(deck) && lo1 <= hi1 <= lo2 <= hi2 <= |deck|
    ensures multiset(deck[lo1..hi1]) !! multiset(deck[lo2..hi2])
  {
    forall c | c in deck[lo1..hi1] ensures c !in deck[lo2..hi2] {
      var i :| lo1 <= i < hi1 && deck[i] == c;
      forall j | lo2 <= j < hi2 ensures deck[j] != c {
        assert i < j;
      }
    }
  }

  /** No card of a distinct deck ends up in two places. */
  lemma SliceDeckDisjoint(deck: seq<Card>)
    requires |deck| == 54 && Distinct(deck)
    ensures var r := SliceDeck(deck);
      && multiset(r.hands[HandA]) !! multiset(r.hands[HandB])
      && multiset(r.hands[HandA]) !! multiset(r.hands[HandC])
      && multiset(r.hands[HandB]) !! multiset(r.hands[HandC])
      && multiset(r.hands[HandA] + r.hands[HandB] + r.hands[HandC]) !! multiset(r.bottom)
  {
    StretchesDisjoint(deck, 0, 17, 17, 34);
    StretchesDisjoint(deck, 0, 17, 34, 51);
    StretchesDisjoint(deck, 17, 34, 34, 51);
    StretchesDisjoint(deck, 0, 51, 51, 54);
    assert deck[0..17] + deck[17..34] + deck[34..51] == deck[0..51];
  }

  /** `deal`: shuffle, then split. The deck the dealer keeps is the shuffled
      one, and the hands and bottom cards are exactly its cards. */
  method DealCards(deck: seq<Card>, draw: nat -> nat) returns (shuffled: seq<Card>, r: Deal)
    ensures |shuffled| == |deck| && multiset(shuffled) == multiset(deck)
    ensures r == SliceDeck(shuffled)
    ensures |deck| == 54 ==>
      multiset(r.hands[HandA] + r.hands[HandB] + r.hands[HandC] + r.bottom) == multiset(deck)
  {
    shuffled := Shuffle(deck, draw);
    r := SliceDeck(shuffled);
  }

  /** A fresh dealer deals 54 different cards: three hands of 17 and 3
      bottom cards that share no card and together are the whole deck. */
  method DealFreshDeck(draw: nat -> nat) returns (r: Deal)
    ensures r.hands.Keys == {HandA, HandB, HandC}
    ensures |r.hands[HandA]| == 17 && |r.hands[HandB]| == 17 && |r.hands[HandC]| == 17
    ensures |r.bottom| == 3
    ensures multiset(r.hands[HandA] + r.hands[HandB] + r.hands[HandC] + r.bottom) == multiset(CreateDeck())
    ensures multiset(r.hands[HandA]) !! multiset(r.hands[HandB])
    ensures multiset(r.hands[HandA]) !! multiset(r.hands[HandC])
    ensures multiset(r.hands[HandB]) !! multiset(r.hands[HandC])
    ensures multiset(r.hands[HandA] + r.hands[HandB] + r.hands[HandC]) !! multiset(r.bottom)
  {
    var deck := CreateDeck();
    var shuffled;
    shuffled, r := DealCards(deck, draw);
    CreateDeckDistinct();
    PermutationDistinct(deck, shuffled);
    SliceDeckDisjoint(shuffled);
  }
}

=== FILE: game_loop.dfy ===
/** `run_game` (framework-study/AgentScopeDemo/main.py): rounds of night and
    day with a win check after each, capped at `MAX_GAME_ROUND` rounds. */
module GameLoop {
  import opened Wrappers
  import opened Seqs
  import opened Roles
  import opened WinCheck
  import opened VoteTally
  import opened GameState
  import opened Phases

  /** `MAX_GAME_ROUND`. */
  const MaxGameRound: nat := 10

  /** Everything the players decide in one round, already parsed: the
      werewolves' kill ballots and the random fallback draws, the seer's
      target, the witch's and hunter's choices, and everybody's day vote. */
  datatype Decisions = Decisions(
    kill: Name -> Reply<Ballot>,
    fallback: Name -> nat,
    seerTarget: Ballot,
    witch: Option<WitchDecision>,
    vote: Name -> Reply<Ballot>,
    hunter: Option<HunterDecision>)

  /** The moderator announcements that carry game information, in order. */
  datatype Event =
    | NightFalls(round: nat)
    | SeerLearns(inspection: Inspection)
    | DeathNotice(dead: seq<Name>)
    | DayBreaks(round: nat)
    | VoteResult(exiled: Ballot, votes: nat)
    | HunterShot(hunter: Name, target: Name)
    | GameOver(winner: Team)

  datatype Phase = AfterNight | AfterDay

  /** A round either continues (`winner == None`) or ends the game after the
      night or after the day. */
  datatype RoundResult = RoundResult(state: State, winner: Option<Team>, phase: Phase, events: seq<Event>)

  /** What a phase of a round may do to the table: roles stay, survivors
      keep their order and nobody comes back, and potions only deplete.
      That the rosters stay consistent is stated next to it. */
  ghost predicate Shrinks(before: State, after: State)
  {
    && after.roles == before.roles
    && SubsequenceOf(after.alive, before.alive)
    && (after.hasAntidote ==> before.hasAntidote)
    && (after.hasPoison ==> before.hasPoison)
  }

  lemma UpdateAliveShrinksState(st: State, dead: seq<Name>)
    ensures Shrinks(st, UpdateAlive(st, dead))
    ensures Consistent(st) ==> Consistent(UpdateAlive(st, dead))
  {
    UpdateAliveShrinks(st, dead);
    if Consistent(st) {
      PruneConsistent(st, Named(dead));
    }
  }

  lemma WitchShrinks(st: State, killed: Ballot, decision: Option<WitchDecision>)
    ensures Shrinks(st, WitchPhase(st, killed, decision).state)
    ensures Consistent(st) ==> Consistent(WitchPhase(st, killed, decision).state)
  {
    var s := WitchPhase(st, killed, decision).state;
    assert s.alive == st.alive && s.roles == st.roles;
    assert s.werewolves == st.werewolves && s.villagers == st.villagers;
    assert s.seer == st.seer && s.witch == st.witch && s.hunter == st.hunter;
    SubsequenceRefl(st.alive);
  }

  lemma ShrinksTrans(a: State, b: State, c: State)
    requires Shrinks(a, b) && Shrinks(b, c)
    ensures Shrinks(a, c)
  {
    SubsequenceTrans(c.alive, b.alive, a.alive);
  }

  /** A step that shrinks the table and keeps it consistent, followed by
      the deaths of `dead`, still does both. */
  lemma ThenBury(st: State, mid: State, dead: seq<Name>)
    requires Shrinks(st, mid) && (Consistent(st) ==> Consistent(mid))
    ensures Shrinks(st, UpdateAlive(mid, dead))
    ensures Consistent(st) ==> Consistent(UpdateAlive(mid, dead))
  {
    UpdateAliveShrinksState(mid, dead);
    ShrinksTrans(st, mid, UpdateAlive(mid, dead));
  }

  /** The night: werewolves, seer, witch, then the night deaths are applied
      and announced. Exactly the unsaved victim and the poisoned player
      leave the table. */
  function PlayNight(st: State, round: nat, d: Decisions): (r: (State, seq<Event>))
    ensures Shrinks(st, r.0)
    ensures Consistent(st) ==> Consistent(r.0)
    ensures forall t :: GameOver(t) !in r.1
    ensures var w := WitchPhase(st, WerewolfPhase(st, d.kill, d.fallback), d.witch);
      forall p :: p in r.0.alive <==> p in st.alive && p !in Casualties(w.finalKilled, w.poisoned)
    ensures var w := WitchPhase(st, WerewolfPhase(st, d.kill, d.fallback), d.witch);
      r.0.hasAntidote == w.state.hasAntidote && r.0.hasPoison == w.state.hasPoison
  {
    var killed := WerewolfPhase(st, d.kill, d.fallback);
    var inspection := SeerPhase(st, d.seerTarget);
    var w := WitchPhase(st, killed, d.witch);
    var dead := NightDeaths(w);
    WitchShrinks(st, killed, d.witch);
    ThenBury(st, w.state, dead);
    UpdateAliveShrinks(w.state, dead);
    (UpdateAlive(w.state, dead), NightNews(round, inspection, dead))
  }

  /** The night's announcements: nightfall, the seer's result when there
      is one, and the death notice. None of them ends the game. */
  function NightNews(round: nat, inspection: Option<Inspection>, dead: seq<Name>): (e: seq<Event>)
    ensures forall t :: GameOver(t) !in e
    ensures |e| >= 2 && e[0] == NightFalls(round) && e[|e| - 1] == DeathNotice(dead)
  {
    [NightFalls(round)]
    + (if inspection.Some? then [SeerLearns(inspection.value)] else [])
    + [DeathNotice(dead)]
  }

  /** The day: the vote, then the hunter's shot, judged while the exiled
      player is still on the hunter roster, then the day deaths. Exactly the
      exiled player and the hunter's target leave the table. */
  function PlayDay(st: State, round: nat, d: Decisions): (r: (State, seq<Event>))
    ensures Shrinks(st, r.0)
    ensures Consistent(st) ==> Consistent(r.0)
    ensures forall t :: GameOver(t) !in r.1
    ensures var exiled := DayPhase(st, d.vote).0;
      forall p :: p in r.0.alive <==> p in st.alive && p !in Casualties(exiled, HunterPhase(st, exiled, d.hunter))
    ensures r.0.hasAntidote == st.hasAntidote && r.0.hasPoison == st.hasPoison
  {
    var (exiled, votes) := DayPhase(st, d.vote);
    var shot := HunterPhase(st, exiled, d.hunter);
    UpdateAliveShrinksState(st, Casualties(exiled, shot));
    UpdateAliveShrinks(st, Casualties(exiled, shot));
    (UpdateAlive(st, Casualties(exiled, shot)), DayNews(round, exiled, votes, if shot.Some? then Some((st.hunter[0], shot.value)) else None))
  }

  /** An exiled hunter who shoots takes the target along: the shot is judged
      before the exile is buried, and both leave the table together. */
  lemma ExiledHunterTakesTarget(st: State, round: nat, d: Decisions, t: Name)
    requires st.hunter != [] && st.hunter[0] != "" && t != ""
    requires DayPhase(st, d.vote).0 == Some(st.hunter[0])
    requires d.hunter == Some(HunterDecision(true, Some(t)))
    ensures st.hunter[0] !in PlayDay(st, round, d).0.alive
    ensures t !in PlayDay(st, round, d).0.alive
    ensures HunterShot(st.hunter[0], t) in PlayDay(st, round, d).1
  {
    var dead := Casualties(Some(st.hunter[0]), Some(t));
    assert HunterPhase(st, Some(st.hunter[0]), d.hunter) == Some(t);
    UpdateAliveShrinks(st, dead);
  }

  /** The day's announcements: daybreak, the vote result, and the hunter's
      shot when there is one. None of them ends the game. */
  function DayNews(round: nat, exiled: Ballot, votes: nat, shot: Option<(Name, Name)>): (e: seq<Event>)
    ensures forall t :: GameOver(t) !in e
    ensures |e| >= 2 && e[..2] == [DayBreaks(round), VoteResult(exiled, votes)]
  {
    [DayBreaks(round), VoteResult(exiled, votes)]
    + (if shot.Some? then [HunterShot(shot.value.0, shot.value.1)] else [])
  }

  /** One iteration of the round loop: the win check after the night ends
      the game before the day starts; the one after the day decides whether
      another round follows. */
  function PlayRound(st: State, round: nat, d: Decisions): (r: RoundResult)
    ensures r.winner == CheckWinning(r.state.alive, r.state.roles)
    ensures r.winner.Some? <==> exists t :: GameOver(t) in r.events
    ensures r.winner.Some? ==> r.events[|r.events| - 1] == GameOver(r.winner.value)
    ensures r.phase == AfterNight ==> r.winner.Some? && r.state == PlayNight(st, round, d).0
    ensures Shrinks(st, r.state)
    ensures Consistent(st) ==> Consistent(r.state)
  {
    var (night, nightEvents) := PlayNight(st, round, d);
    AfterNightfall(st, night, nightEvents, round, d)
  }

  /** A night without a verdict is followed by the day: the round ends on
      the table the day leaves when played on the table the night left. */
  lemma UndecidedNightThenDay(st: State, round: nat, d: Decisions)
    ensures var night := PlayNight(st, round, d).0;
      CheckWinning(night.alive, night.roles) == None ==>
        && PlayRound(st, round, d).phase == AfterDay
        && PlayRound(st, round, d).state == PlayDay(night, round, d).0
  {
    var (night, nightEvents) := PlayNight(st, round, d);
    var r := AfterNightfall(st, night, nightEvents, round, d);
    assert PlayRound(st, round, d) == r;
  }

  /** The first win check of a round, on the table the night left. */
  function AfterNightfall(st: State, night: State, nightEvents: seq<Event>, round: nat, d: Decisions): (r: RoundResult)
    requires forall t :: GameOver(t) !in nightEvents
    requires Shrinks(st, night) && (Consistent(st) ==> Consistent(night))
    ensures r.winner == CheckWinning(r.state.alive, r.state.roles)
    ensures r.winner.Some? <==> exists t :: GameOver(t) in r.events
    ensures r.winner.Some? ==> r.events[|r.events| - 1] == GameOver(r.winner.value)
    ensures r.phase == AfterNight ==> r.winner.Some? && r.state == night
    ensures CheckWinning(night.alive, night.roles) == None ==> r.phase == AfterDay && r.state == PlayDay(night, round, d).0
    ensures Shrinks(st, r.state)
    ensures Consistent(st) ==> Consistent(r.state)
  {
    match CheckWinning(night.alive, night.roles)
    case Some(team) =>
      NoGameOverIn(nightEvents, [], Some(team));
      assert nightEvents + [] == nightEvents;
      RoundResult(night, Some(team), AfterNight, nightEvents + [GameOver(team)])
    case None =>
      var r := AfterQuietNight(night, nightEvents, round, d);
      ShrinksTrans(st, night, r.state);
      r
  }

  /** The rest of a round whose night left the game undecided: the day, then
      the second win check. */
  function AfterQuietNight(night: State, nightEvents: seq<Event>, round: nat, d: Decisions): (r: RoundResult)
    requires forall t :: GameOver(t) !in nightEvents
    ensures r.winner == CheckWinning(r.state.alive, r.state.roles)
    ensures r.winner.Some? <==> exists t :: GameOver(t) in r.events
    ensures r.winner.Some? ==> r.events[|r.events| - 1] == GameOver(r.winner.value)
    ensures r.phase == AfterDay
    ensures r.state == PlayDay(night, round, d).0
    ensures |nightEvents| <= |r.events| && r.events[..|nightEvents|] == nightEvents
    ensures Shrinks(night, r.state)
    ensures Consistent(night) ==> Consistent(r.state)
  {
    var (day, dayEvents) := PlayDay(night, round, d);
    var winner := CheckWinning(day.alive, day.roles);
    var tail := dayEvents + (if winner.Some? then [GameOver(winner.value)] else []);
    var events := nightEvents + tail;
    assert events == nightEvents + dayEvents + (if winner.Some? then [GameOver(winner.value)] else []);
    assert events[..|nightEvents|] == nightEvents;
    NoGameOverIn(nightEvents, dayEvents, winner);
    RoundResult(day, winner, AfterDay, events)
  }

  lemma NoGameOverIn(a: seq<Event>, b: seq<Event>, winner: Option<Team>)
    requires forall t :: GameOver(t) !in a && GameOver(t) !in b
    ensures var events := a + b + (if winner.Some? then [GameOver(winner.value)] else []);
      && (winner.Some? <==> exists t :: GameOver(t) in events)
      && (winner.Some? ==> events[|events| - 1] == GameOver(winner.value))
  {
    var events := a + b + (if winner.Some? then [GameOver(winner.value)] else []);
    if winner.Some? {
      assert GameOver(winner.value) in events;
    } else {
      assert events == a + b;
    }
  }

  /** A win declared after the night ends the round there: the day's
      decisions play no part in the result. */
  lemma NightWinSkipsDay(st: State, round: nat, d: Decisions,
                         vote: Name -> Reply<Ballot>, hunter: Option<HunterDecision>)
    ensures CheckWinning(PlayNight(st, round, d).0.alive, PlayNight(st, round, d).0.roles).Some? ==>
      && PlayRound(st, round, d).phase == AfterNight
      && PlayRound(st, round, d.(vote := vote, hunter := hunter)) == PlayRound(st, round, d)
  {
    var d' := d.(vote := vote, hunter := hunter);
    assert PlayNight(st, round, d') == PlayNight(st, round, d);
  }

  datatype Outcome = Won(winner: Team, round: nat, phase: Phase) | NoResolution

  /** The end of a game: the final state, how it ended, and the moderator's
      announcements. */
  datatype GameRecord = GameRecord(state: State, outcome: Outcome, log: seq<Event>)

  /** Announcements without a game-over in front of a log change neither
      whether it announces a game-over nor its last entry. */
  lemma LogPrefix(events: seq<Event>, rest: seq<Event>)
    requires forall t :: GameOver(t) !in events
    ensures (exists t :: GameOver(t) in events + rest) <==> (exists t :: GameOver(t) in rest)
    ensures |rest| > 0 ==> (events + rest)[|events + rest| - 1] == rest[|rest| - 1]
  {
    forall t ensures GameOver(t) in events + rest <==> GameOver(t) in rest {
      assert GameOver(t) in events + rest <==> GameOver(t) in events || GameOver(t) in rest;
    }
  }

  /** Round `k` of a game played with the decisions `decide(k)`. */
  function RoundOf(decide: nat -> Decisions): (State, nat) -> RoundResult
  {
    (s: State, k: nat) => PlayRound(s, k, decide(k))
  }

  /** The rounds a game plays from table `cur` on, starting with round
      `round`, where `step(s, k)` plays round k on table s. A round with a
      verdict ends the game, and so does round `MaxGameRound`. */
  function GameFrom(step: (State, nat) -> RoundResult, cur: State, round: nat): (rs: seq<RoundResult>)
    requires 1 <= round <= MaxGameRound
    ensures 1 <= |rs| <= MaxGameRound - round + 1
    ensures rs[0] == step(cur, round)
    decreases MaxGameRound - round
  {
    var rr := step(cur, round);
    if rr.winner.Some? || round == MaxGameRound then [rr]
    else [rr] + GameFrom(step, rr.state, round + 1)
  }

  /** What every round promises about the table it is played on: it only
      removes players, keeps a consistent table consistent, its verdict is
      the win check of the table it leaves, and it announces a game-over
      exactly when it has a verdict, as its last announcement. */
  ghost predicate RoundKeeps(s: State, rr: RoundResult)
  {
    && Shrinks(s, rr.state)
    && (Consistent(s) ==> Consistent(rr.state))
    && rr.winner == CheckWinning(rr.state.alive, rr.state.roles)
    && (rr.winner.Some? <==> exists t :: GameOver(t) in rr.events)
    && (rr.winner.Some? ==> rr.events[|rr.events| - 1] == GameOver(rr.winner.value))
  }

  /** The announcements of a sequence of rounds, in order. */
  function Announcements(rounds: seq<RoundResult>): seq<Event>
  {
    if |rounds| == 0 then [] else rounds[0].events + Announcements(rounds[1..])
  }

  /** The announcements of one more round end with its events. */
  lemma {:induction false} AnnouncementsSnoc(rounds: seq<RoundResult>, rr: RoundResult)
    ensures Announcements(rounds + [rr]) == Announcements(rounds) + rr.events
    decreases |rounds|
  {
    if |rounds| == 0 {
      assert rounds + [rr] == [rr];
      assert Announcements([rr]) == rr.events + Announcements([]);
    } else {
      assert (rounds + [rr])[1..] == rounds[1..] + [rr];
      AnnouncementsSnoc(rounds[1..], rr);
    }
  }

  /** Playing the next round of a game extends the rounds played so far by
      that round, followed by the game from the table it leaves unless it
      ends the game. */
  lemma GameFromStep(step: (State, nat) -> RoundResult, cur: State, round: nat,
                     played: seq<RoundResult>, game: seq<RoundResult>)
    requires 1 <= round <= MaxGameRound
    requires played + GameFrom(step, cur, round) == game
    ensures var rr := step(cur, round);
      if rr.winner.Some? || round == MaxGameRound then played + [rr] == game
      else played + [rr] + GameFrom(step, rr.state, round + 1) == game
  {
    var rr := step(cur, round);
    if !(rr.winner.Some? || round == MaxGameRound) {
      var rest := GameFrom(step, rr.state, round + 1);
      assert GameFrom(step, cur, round) == [rr] + rest;
      assert played + [rr] + rest == played + ([rr] + rest);
    }
  }

  /** The shape of a game: every round but the last is undecided, and a
      last round without a verdict is round `MaxGameRound`. */
  lemma {:induction false} GameFromShape(step: (State, nat) -> RoundResult, cur: State, round: nat)
    requires 1 <= round <= MaxGameRound
    ensures var rs := GameFrom(step, cur, round);
      && (forall k :: 0 <= k < |rs| - 1 ==> rs[k].winner.None?)
      && (rs[|rs| - 1].winner.None? ==> |rs| == MaxGameRound - round + 1)
    decreases MaxGameRound - round
  {
    var rr := step(cur, round);
    if !(rr.winner.Some? || round == MaxGameRound) {
      GameFromShape(step, rr.state, round + 1);
    }
  }

  /** Every round played with `step` keeps its promises, whatever the table. */
  ghost predicate RoundsKeep(step: (State, nat) -> RoundResult)
  {
    forall s: State, k: nat {:trigger RoundKeeps(s, step(s, k))} :: RoundKeeps(s, step(s, k))
  }

  /** The rounds of `run_game` keep their promises on every table. */
  lemma PlayRoundsKeep(decide: nat -> Decisions)
    ensures RoundsKeep(RoundOf(decide))
  {
    forall s: State, k: nat ensures RoundKeeps(s, RoundOf(decide)(s, k)) {
      RoundOfKeeps(decide, s, k);
    }
  }

  lemma RoundOfKeeps(decide: nat -> Decisions, s: State, k: nat)
    ensures RoundKeeps(s, RoundOf(decide)(s, k))
  {
    PlayRoundKeeps(s, k, decide(k));
    assert RoundOf(decide)(s, k) == PlayRound(s, k, decide(k));
  }

  /** One round keeps its promises on any table, under any decisions. */
  lemma PlayRoundKeeps(s: State, k: nat, d: Decisions)
    ensures RoundKeeps(s, PlayRound(s, k, d))
  {
    var rr := PlayRound(s, k, d);
    assert Shrinks(s, rr.state);
  }

  /** Rounds `rs` played from table `cur` end on a shrunk, consistent copy
      of it whose win check is the last round's verdict. */
  ghost predicate EndsOn(cur: State, rs: seq<RoundResult>)
    requires |rs| > 0
  {
    var last := rs[|rs| - 1];
    && Shrinks(cur, last.state)
    && Consistent(last.state)
    && last.winner == CheckWinning(last.state.alive, last.state.roles)
  }

  lemma EndsOnOne(cur: State, rr: RoundResult)
    requires Consistent(cur) && RoundKeeps(cur, rr)
    ensures EndsOn(cur, [rr])
  {
  }

  lemma EndsOnCons(cur: State, rr: RoundResult, rest: seq<RoundResult>)
    requires Consistent(cur) && RoundKeeps(cur, rr)
    requires |rest| > 0 && EndsOn(rr.state, rest)
    ensures EndsOn(cur, [rr] + rest)
  {
    assert ([rr] + rest)[|rest|] == rest[|rest| - 1];
    ShrinksTrans(cur, rr.state, rest[|rest| - 1].state);
  }

  /** Where a game from a consistent table ends, when every round keeps its
      promises: a shrunk, consistent copy of that table, whose win check is
      the last round's verdict. */
  lemma {:induction false} GameFromTable(step: (State, nat) -> RoundResult, cur: State, round: nat)
    requires 1 <= round <= MaxGameRound && Consistent(cur) && RoundsKeep(step)
    ensures EndsOn(cur, GameFrom(step, cur, round))
    decreases MaxGameRound - round
  {
    var rr := step(cur, round);
    assert RoundKeeps(cur, rr);
    if rr.winner.Some? || round == MaxGameRound {
      EndsOnOne(cur, rr);
    } else {
      GameFromTable(step, rr.state, round + 1);
      EndsOnCons(cur, rr, GameFrom(step, rr.state, round + 1));
    }
  }

  /** The announcements of rounds `rs` contain a game-over exactly when the
      last round has a verdict, and then as their last entry. */
  ghost predicate AnnouncesEnd(rs: seq<RoundResult>)
    requires |rs| > 0
  {
    var log := Announcements(rs);
    var last := rs[|rs| - 1];
    && ((exists t :: GameOver(t) in log) <==> last.winner.Some?)
    && (last.winner.Some? ==> |log| > 0 && log[|log| - 1] == GameOver(last.winner.value))
  }

  lemma AnnouncesEndOne(s: State, rr: RoundResult)
    requires RoundKeeps(s, rr)
    ensures AnnouncesEnd([rr])
  {
    assert Announcements([rr]) == rr.events + Announcements([]);
    assert rr.events + [] == rr.events;
  }

  lemma AnnouncesEndCons(s: State, rr: RoundResult, rest: seq<RoundResult>)
    requires RoundKeeps(s, rr) && rr.winner.None?
    requires |rest| > 0 && AnnouncesEnd(rest)
    ensures AnnouncesEnd([rr] + rest)
  {
    var rs := [rr] + rest;
    assert rs[1..] == rest;
    assert Announcements(rs) == rr.events + Announcements(rest);
    assert rs[|rs| - 1] == rest[|rest| - 1];
    LogPrefix(rr.events, Announcements(rest));
  }

  /** A game's announcements contain a game-over exactly when its last
      round has a verdict, and then as their last entry. */
  lemma {:induction false} GameFromLog(step: (State, nat) -> RoundResult, cur: State, round: nat)
    requires 1 <= round <= MaxGameRound && RoundsKeep(step)
    ensures AnnouncesEnd(GameFrom(step, cur, round))
    decreases MaxGameRound - round
  {
    var rr := step(cur, round);
    assert RoundKeeps(cur, rr);
    if rr.winner.Some? || round == MaxGameRound {
      AnnouncesEndOne(cur, rr);
    } else {
      GameFromLog(step, rr.state, round + 1);
      AnnouncesEndCons(cur, rr, GameFrom(step, rr.state, round + 1));
    }
  }

  /** The `for` loop of `run_game` over rounds 1 to `MaxGameRound`, for any
      way `step` of playing a round: it plays the game from round 1, leaving
      the loop at the first round with a verdict, and collects the
      announcements of the rounds it played. */
  method PlayFrom(step: (State, nat) -> RoundResult, st: State) returns (rounds: seq<RoundResult>, log: seq<Event>)
    ensures rounds == GameFrom(step, st, 1)
    ensures log == Announcements(rounds)
  {
    ghost var game := GameFrom(step, st, 1);
    log := [];
    var round := 1;
    var cur := st;
    rounds := [];
    assert rounds + game == game;
    while round <= MaxGameRound
      invariant 1 <= round <= MaxGameRound + 1
      invariant round <= MaxGameRound ==> rounds + GameFrom(step, cur, round) == game
      invariant round > MaxGameRound ==> rounds == game
      invariant log == Announcements(rounds)
    {
      var rr := step(cur, round);
      GameFromStep(step, cur, round, rounds, game);
      AnnouncementsSnoc(rounds, rr);
      rounds := rounds + [rr];
      log := log + rr.events;
      if rr.winner.Some? {
        return;
      }
      cur := rr.state;
      round := round + 1;
    }
  }

  /** The record built from the last of rounds `rs` played from table `st`
      carries the last round's verdict as the outcome, its table as the
      final table, and the announcements of all rounds as the log. */
  lemma RecordOfRounds(st: State, rs: seq<RoundResult>, r: GameRecord)
    requires 0 < |rs| <= MaxGameRound && EndsOn(st, rs) && AnnouncesEnd(rs)
    requires rs[|rs| - 1].winner.None? ==> |rs| == MaxGameRound
    requires r.state == rs[|rs| - 1].state && r.log == Announcements(rs)
    requires r.outcome == if rs[|rs| - 1].winner.Some? then Won(rs[|rs| - 1].winner.value, |rs|, rs[|rs| - 1].phase) else NoResolution
    ensures r.outcome.NoResolution? ==> |rs| == MaxGameRound
    ensures r.outcome.Won? ==> 1 <= r.outcome.round <= MaxGameRound
    ensures r.outcome.Won? ==> CheckWinning(r.state.alive, r.state.roles) == Some(r.outcome.winner)
    ensures r.outcome.NoResolution? ==> CheckWinning(r.state.alive, r.state.roles) == None
    ensures r.outcome.Won? <==> exists t :: GameOver(t) in r.log
    ensures r.outcome.Won? ==> r.log[|r.log| - 1] == GameOver(r.outcome.winner)
    ensures Shrinks(st, r.state) && Consistent(r.state)
  {
  }

  /** The rounds of a game from a consistent table, played with a `step`
      whose rounds keep their promises: the game from round 1, ending on a
      shrunk, consistent table whose win check is the outcome, and
      announcing a game-over exactly when someone won, as the last
      announcement. */
  method PlayRounds(step: (State, nat) -> RoundResult, st: State) returns (r: GameRecord, rounds: seq<RoundResult>)
    requires Consistent(st) && RoundsKeep(step)
    ensures rounds == GameFrom(step, st, 1)
    ensures r.state == rounds[|rounds| - 1].state
    ensures r.log == Announcements(rounds)
    ensures r.outcome.Won? <==> rounds[|rounds| - 1].winner.Some?
    ensures r.outcome.Won? ==>
      r.outcome == Won(rounds[|rounds| - 1].winner.value, |rounds|, rounds[|rounds| - 1].phase)
    ensures forall k :: 0 <= k < |rounds| - 1 ==> rounds[k].winner.None?
    ensures r.outcome.NoResolution? ==> |rounds| == MaxGameRound
    ensures r.outcome.Won? ==> 1 <= r.outcome.round <= MaxGameRound
    ensures r.outcome.Won? ==> CheckWinning(r.state.alive, r.state.roles) == Some(r.outcome.winner)
    ensures r.outcome.NoResolution? ==> CheckWinning(r.state.alive, r.state.roles) == None
    ensures r.outcome.Won? <==> exists t :: GameOver(t) in r.log
    ensures r.outcome.Won? ==> r.log[|r.log| - 1] == GameOver(r.outcome.winner)
    ensures Shrinks(st, r.state) && Consistent(r.state)
  {
    var log;
    rounds, log := PlayFrom(step, st);
    var last := rounds[|rounds| - 1];
    var outcome := if last.winner.Some? then Won(last.winner.value, |rounds|, last.phase) else NoResolution;
    r := GameRecord(last.state, outcome, log);
    GameFromShape(step, st, 1);
    assert last.winner.None? ==> |rounds| == MaxGameRound;
    GameFromTable(step, st, 1);
    GameFromLog(step, st, 1);
    RecordOfRounds(st, rounds, r);
  }

  /** `run_game`: set up the default six-player table from the sampled
      characters, then play the rounds from it, round k under the decisions
      `decide(k)`. Survivors are sampled characters in sampling order, and
      the rosters stay exact to the end. */
  method RunGame(sample: seq<Name>, decide: nat -> Decisions) returns (r: GameRecord, start: State, rounds: seq<RoundResult>)
    requires IsSample(sample, DefaultPlayerCount)
    ensures Setup(DefaultPlayerCount, sample) == Ok(start)
    ensures rounds == GameFrom(RoundOf(decide), start, 1)
    ensures r.state == rounds[|rounds| - 1].state
    ensures r.log == Announcements(rounds)
    ensures r.outcome.Won? <==> rounds[|rounds| - 1].winner.Some?
    ensures r.outcome.Won? ==>
      r.outcome == Won(rounds[|rounds| - 1].winner.value, |rounds|, rounds[|rounds| - 1].phase)
    ensures forall k :: 0 <= k < |rounds| - 1 ==> rounds[k].winner.None?
    ensures r.outcome.NoResolution? ==> |rounds| == MaxGameRound
    ensures r.outcome.Won? ==> 1 <= r.outcome.round <= MaxGameRound
    ensures r.outcome.Won? ==> CheckWinning(r.state.alive, r.state.roles) == Some(r.outcome.winner)
    ensures r.outcome.NoResolution? ==> CheckWinning(r.state.alive, r.state.roles) == None
    ensures r.outcome.Won? <==> exists t :: GameOver(t) in r.log
    ensures r.outcome.Won? ==> r.log[|r.log| - 1] == GameOver(r.outcome.winner)
    ensures SubsequenceOf(r.state.alive, sample)
    ensures Consistent(r.state)
  {
    start := Setup(DefaultPlayerCount, sample).value;
    PlayRoundsKeep(decide);
    r, rounds := PlayRounds(RoundOf(decide), start);
  }

  /** Decisions under which nobody can die: the werewolves reply without a
      target, the witch does nothing, and every vote names nobody. */
  ghost predicate Quiet(d: Decisions)
  {
    && (forall w :: d.kill(w) == Replied(None))
    && d.witch.None?
    && (forall p :: d.vote(p) == Replied(None))
  }

  /** A round in which nobody can die changes nothing and declares no
      winner when the table was undecided. */
  lemma QuietRoundChangesNothing(st: State, round: nat, d: Decisions)
    requires Quiet(d)
    requires CheckWinning(st.alive, st.roles) == None
    ensures PlayRound(st, round, d).state == st
    ensures PlayRound(st, round, d).winner == None
  {
    QuietNightChangesNothing(st, round, d);
    UndecidedNightThenDay(st, round, d);
    QuietDayChangesNothing(st, round, d);
  }

  /** Nobody dies in a quiet night: the pack names nobody and the witch
      does nothing, so the table stays as it was. */
  lemma QuietNightChangesNothing(st: State, round: nat, d: Decisions)
    requires Quiet(d)
    ensures PlayNight(st, round, d).0 == st
  {
    var killed := WerewolfPhase(st, d.kill, d.fallback);
    assert killed == None;
    var w := WitchPhase(st, killed, d.witch);
    assert NightDeaths(w) == [];
    UpdateAliveNoDead(st, []);
  }

  /** Nobody dies in a quiet day with voters: every vote names nobody, so
      nobody is exiled and the hunter has no shot. (With nobody alive the
      tally announces "无人" instead.) */
  lemma QuietDayChangesNothing(st: State, round: nat, d: Decisions)
    requires Quiet(d) && st.alive != []
    ensures PlayDay(st, round, d).0 == st
  {
    var (exiled, votes) := DayPhase(st, d.vote);
    assert exiled == None;
    var shot := HunterPhase(st, exiled, d.hunter);
    assert Casualties(exiled, shot) == [];
    UpdateAliveNoDead(st, []);
  }

  /** A game whose every round leaves table `cur` as it is, undecided, runs
      until the round cap on that table. */
  lemma {:induction false} StillGameFrom(step: (State, nat) -> RoundResult, cur: State, round: nat)
    requires 1 <= round <= MaxGameRound
    requires forall k: nat {:trigger step(cur, k)} :: step(cur, k).state == cur && step(cur, k).winner.None?
    ensures var rs := GameFrom(step, cur, round);
      && |rs| == MaxGameRound - round + 1
      && forall j :: 0 <= j < |rs| ==> rs[j].state == cur && rs[j].winner.None?
    decreases MaxGameRound - round
  {
    var rr := step(cur, round);
    if round < MaxGameRound {
      StillGameFrom(step, cur, round + 1);
      var rest := GameFrom(step, cur, round + 1);
      assert GameFrom(step, cur, round) == [rr] + rest;
    }
  }

  /** A game from an undecided table in which nobody can die in any round
      plays all `MaxGameRound` rounds, changes nothing and ends without a
      winner. */
  lemma QuietGameRunsToCap(st: State, decide: nat -> Decisions)
    requires forall k :: Quiet(decide(k))
    requires CheckWinning(st.alive, st.roles) == None
    ensures var rs := GameFrom(RoundOf(decide), st, 1);
      && |rs| == MaxGameRound
      && forall j :: 0 <= j < |rs| ==> rs[j].state == st && rs[j].winner.None?
  {
    forall k: nat ensures RoundOf(decide)(st, k).state == st && RoundOf(decide)(st, k).winner.None? {
      QuietRoundChangesNothing(st, k, decide(k));
      assert RoundOf(decide)(st, k) == PlayRound(st, k, decide(k));
    }
    StillGameFrom(RoundOf(decide), st, 1);
  }
}

=== FILE: game_state.dfy ===
/** The state `ThreeKingdomsWerewolfGame` keeps between phases, how
    `setup_game` builds it, and how `update_alive_players` prunes it
    (framework-study/AgentScopeDemo/main.py). */
module GameState {
  import opened Wrappers
  import opened Seqs
  import opened Text
  import opened Roles
  import opened WinCheck

  /** Names, roles, the living players, one roster per camp and the witch's
      two one-shot potions. Dead players stay in `roles`. */
  datatype State = State(
    roles: map<Name, Role>,
    alive: seq<Name>,
    werewolves: seq<Name>,
    villagers: seq<Name>,
    seer: seq<Name>,
    witch: seq<Name>,
    hunter: seq<Name>,
    hasAntidote: bool,
    hasPoison: bool)

  /** The nine characters `setup_game` samples its players from. */
  const Characters: seq<Name> := ["刘备", "关羽", "张飞", "诸葛亮", "赵云", "曹操", "司马懿", "周瑜", "孙权"]

  /** The table size `run_game` sets up. */
  const DefaultPlayerCount: int := 6

  /** The roles each roster collects; the setup's `else` branch puts
      Guardians with the villagers. */
  const WolfRoles: set<Role> := {Werewolf}
  const VillagerRoles: set<Role> := {Villager, Guardian}
  const SeerRoles: set<Role> := {Seer}
  const WitchRoles: set<Role> := {Witch}
  const HunterRoles: set<Role> := {Hunter}

  /** The players of `alive` whose role is in `rs`, in order. */
  function Holders(alive: seq<Name>, roles: map<Name, Role>, rs: set<Role>): seq<Name>
  {
    if |alive| == 0 then []
    else (if RoleOf(roles, alive[0]) in rs then [alive[0]] else []) + Holders(alive[1..], roles, rs)
  }

  /** Every roster is exactly the living holders of its roles, in the order
      of the alive list; nobody is listed twice; every living player has a
      recorded role. */
  ghost predicate Consistent(st: State)
  {
    && Distinct(st.alive)
    && (forall p :: p in st.alive ==> p in st.roles)
    && st.werewolves == Holders(st.alive, st.roles, WolfRoles)
    && st.villagers == Holders(st.alive, st.roles, VillagerRoles)
    && st.seer == Holders(st.alive, st.roles, SeerRoles)
    && st.witch == Holders(st.alive, st.roles, WitchRoles)
    && st.hunter == Holders(st.alive, st.roles, HunterRoles)
  }

  // ---------------------------------------------------------------- setup

  datatype SetupError = SampleOutOfRange

  /** What `random.sample(characters, n)` may return: n distinct characters. */
  ghost predicate IsSample(sample: seq<Name>, n: int)
  {
    |sample| == n && Distinct(sample) && forall x :: x in sample ==> x in Characters
  }

  function Empty(): State
  {
    State(map[], [], [], [], [], [], [], true, true)
  }

  /** `create_player` plus the roster assignment of one loop iteration. */
  function Enroll(st: State, name: Name, role: Role): State
  {
    var st' := st.(roles := st.roles[name := role], alive := st.alive + [name]);
    if role == Werewolf then st'.(werewolves := st.werewolves + [name])
    else if role == Seer then st'.(seer := st.seer + [name])
    else if role == Witch then st'.(witch := st.witch + [name])
    else if role == Hunter then st'.(hunter := st.hunter + [name])
    else st'.(villagers := st.villagers + [name])
  }

  /** The loop over `zip(roles, characters)`. */
  function Assign(roles: seq<Role>, names: seq<Name>): (r: State)
    requires |roles| == |names| && Distinct(names)
    ensures r.alive == names
    ensures forall i :: 0 <= i < |names| ==> names[i] in r.roles && r.roles[names[i]] == roles[i]
    ensures Consistent(r)
    ensures r.hasAntidote && r.hasPoison
  {
    if |names| == 0 then Empty()
    else
      var k := |names| - 1;
      AssignStep(roles, names);
      var st := Assign(roles[..k], names[..k]);
      EnrollConsistent(st, names[k], roles[k]);
      EnrollFields(st, names[k], roles[k]);
      Enroll(st, names[k], roles[k])
  }

  /** Enrolling records the role, seats the player last, and appends the name
      to the roster of its role only. */
  lemma EnrollFields(st: State, name: Name, role: Role)
    ensures var r := Enroll(st, name, role);
      && r.roles == st.roles[name := role]
      && r.alive == st.alive + [name]
      && r.hasAntidote == st.hasAntidote && r.hasPoison == st.hasPoison
      && r.werewolves == st.werewolves + (if role in WolfRoles then [name] else [])
      && r.villagers == st.villagers + (if role in VillagerRoles then [name] else [])
      && r.seer == st.seer + (if role in SeerRoles then [name] else [])
      && r.witch == st.witch + (if role in WitchRoles then [name] else [])
      && r.hunter == st.hunter + (if role in HunterRoles then [name] else [])
  {
    assert st.werewolves + [] == st.werewolves;
    assert st.villagers + [] == st.villagers;
    assert st.seer + [] == st.seer;
    assert st.witch + [] == st.witch;
    assert st.hunter + [] == st.hunter;
  }

  lemma AssignStep(roles: seq<Role>, names: seq<Name>)
    requires |roles| == |names| > 0 && Distinct(names)
    ensures Distinct(names[..|names| - 1])
    ensures names[|names| - 1] !in names[..|names| - 1]
    ensures names[..|names| - 1] + [names[|names| - 1]] == names
  {
    var k := |names| - 1;
    forall j | 0 <= j < k ensures names[..k][j] != names[k] {
      assert names[..k][j] == names[j];
    }
  }

  lemma AppendDistinct(s: seq<Name>, x: Name)
    requires Distinct(s) && x !in s
    ensures Distinct(s + [x])
  {
    forall i, j | 0 <= i < j < |s + [x]| ensures (s + [x])[i] != (s + [x])[j] {
      assert (s + [x])[i] == s[i];
      if j < |s| {
        assert (s + [x])[j] == s[j];
      }
    }
  }

  lemma EnrollHolders(st: State, name: Name, role: Role, rs: set<Role>)
    requires name !in st.alive
    ensures Holders(Enroll(st, name, role).alive, Enroll(st, name, role).roles, rs)
         == Holders(st.alive, st.roles, rs) + (if role in rs then [name] else [])
  {
    var roles' := st.roles[name := role];
    HoldersAppend(st.alive, name, roles', rs);
    HoldersFrame(st.alive, st.roles, name, role, rs);
    assert RoleOf(roles', name) == role;
  }

  lemma EnrollConsistent(st: State, name: Name, role: Role)
    requires Consistent(st) && name !in st.alive
    ensures Consistent(Enroll(st, name, role))
  {
    EnrollFields(st, name, role);
    EnrollHolders(st, name, role, WolfRoles);
    EnrollHolders(st, name, role, VillagerRoles);
    EnrollHolders(st, name, role, SeerRoles);
    EnrollHolders(st, name, role, WitchRoles);
    EnrollHolders(st, name, role, HunterRoles);
    AppendDistinct(st.alive, name);
  }

  lemma {:induction false} HoldersAppend(alive: seq<Name>, x: Name, roles: map<Name, Role>, rs: set<Role>)
    ensures Holders(alive + [x], roles, rs)
         == Holders(alive, roles, rs) + (if RoleOf(roles, x) in rs then [x] else [])
  {
    if |alive| == 0 {
      assert alive + [x] == [x];
    } else {
      assert (alive + [x])[1..] == alive[1..] + [x];
      HoldersAppend(alive[1..], x, roles, rs);
    }
  }

  /** A roster only looks at the roles of the living. */
  lemma {:induction false} HoldersFrame(alive: seq<Name>, roles: map<Name, Role>, x: Name, role: Role, rs: set<Role>)
    requires x !in alive
    ensures Holders(alive, roles[x := role], rs) == Holders(alive, roles, rs)
  {
    if |alive| > 0 {
      assert x !in alive[1..];
      HoldersFrame(alive[1..], roles, x, role, rs);
    }
  }

  /** `setup_game(n)` with the character sample as a parameter: the roles of
      `get_standard_setup(n)` are dealt to the sampled characters seat by
      seat. `random.sample` raises for n < 0 or n > 9. */
  function Setup(n: int, sample: seq<Name>): (r: Result<State, SetupError>)
    requires 0 <= n <= |Characters| ==> IsSample(sample, n)
    ensures r.Err? <==> n < 0 || n > |Characters|
    ensures r.Ok? ==> r.value.alive == sample && Consistent(r.value)
    ensures r.Ok? ==> forall i :: 0 <= i < |sample| ==> r.value.roles[sample[i]] == StandardSetup(n)[i]
    ensures r.Ok? ==> r.value.hasAntidote && r.value.hasPoison
  {
    if n < 0 || n > |Characters| then Err(SampleOutOfRange)
    else
      var setup := StandardSetup(n);
      var k := if |setup| < |sample| then |setup| else |sample|;
      assert sample[..k] == sample;
      Ok(Assign(setup[..k], sample[..k]))
  }

  /** The living holders of a role are as many as the role's occurrences in
      the roles of the living. */
  lemma {:induction false} HoldersCount(alive: seq<Name>, roles: map<Name, Role>, role: Role)
    ensures |Holders(alive, roles, {role})| == Count(AliveRoles(alive, roles), role)
  {
    if |alive| > 0 {
      HoldersCount(alive[1..], roles, role);
      assert AliveRoles(alive, roles)[1..] == AliveRoles(alive[1..], roles);
    }
  }

  /** A fresh table has as many living werewolves, seers, witches and hunters
      as the standard setup prescribes; in particular at most one seer, witch
      and hunter when the mix is generated. */
  lemma SetupRosterSizes(n: int, sample: seq<Name>)
    requires 1 <= n <= |Characters| && IsSample(sample, n)
    ensures var st := Setup(n, sample).value;
      && |st.werewolves| == ExpectedMix(n).werewolves
      && |st.seer| == ExpectedMix(n).seers
      && |st.witch| == ExpectedMix(n).witches
      && |st.hunter| == ExpectedMix(n).hunters
  {
    var st := Setup(n, sample).value;
    var rs := AliveRoles(st.alive, st.roles);
    assert |rs| == |StandardSetup(n)|;
    forall i | 0 <= i < |rs| ensures rs[i] == StandardSetup(n)[i] {
      assert RoleOf(st.roles, sample[i]) == st.roles[sample[i]];
    }
    assert rs == StandardSetup(n);
    HoldersCount(st.alive, st.roles, Werewolf);
    HoldersCount(st.alive, st.roles, Seer);
    HoldersCount(st.alive, st.roles, Witch);
    HoldersCount(st.alive, st.roles, Hunter);
  }

  // ------------------------------------------------- update_alive_players

  /** Names that are not empty strings: the `if dead_name` filter. */
  function Named(dead: seq<Name>): set<Name>
  {
    set x | x in dead && x != ""
  }

  /** The reference for removing players: drop every name of `gone` from the
      alive list and from every roster; roles and potions stay. */
  function Prune(st: State, gone: set<Name>): State
  {
    st.(alive := RemoveAll(st.alive, gone),
        werewolves := RemoveAll(st.werewolves, gone),
        villagers := RemoveAll(st.villagers, gone),
        seer := RemoveAll(st.seer, gone),
        witch := RemoveAll(st.witch, gone),
        hunter := RemoveAll(st.hunter, gone))
  }

  /** One iteration of the loop: five list comprehensions keeping the
      players whose name differs from `x`. */
  function Bury(st: State, x: Name): State
  {
    st.(alive := Without(st.alive, x),
        werewolves := Without(st.werewolves, x),
        villagers := Without(st.villagers, x),
        seer := Without(st.seer, x),
        witch := Without(st.witch, x),
        hunter := Without(st.hunter, x))
  }

  lemma PruneTwice(st: State, a: set<Name>, b: set<Name>)
    ensures Prune(Prune(st, a), b) == Prune(st, a + b)
  {
    RemoveAllTwice(st.alive, a, b);
    RemoveAllTwice(st.werewolves, a, b);
    RemoveAllTwice(st.villagers, a, b);
    RemoveAllTwice(st.seer, a, b);
    RemoveAllTwice(st.witch, a, b);
    RemoveAllTwice(st.hunter, a, b);
  }

  lemma PruneNothing(st: State)
    ensures Prune(st, {}) == st
  {
    RemoveAllNothing(st.alive);
    RemoveAllNothing(st.werewolves);
    RemoveAllNothing(st.villagers);
    RemoveAllNothing(st.seer);
    RemoveAllNothing(st.witch);
    RemoveAllNothing(st.hunter);
  }

  /** `update_alive_players(dead)`: the dead are buried one by one, in list
      order, skipping empty names. The result removes every non-empty dead
      name from the alive list and every roster at once. */
  function UpdateAlive(st: State, dead: seq<Name>): (r: State)
    ensures r == Prune(st, Named(dead))
    decreases |dead|
  {
    if |dead| == 0 then
      PruneNothing(st);
      assert Named(dead) == {};
      st
    else
      BuryThenPrune(st, dead);
      UpdateAlive(if dead[0] != "" then Bury(st, dead[0]) else st, dead[1..])
  }

  lemma BuryThenPrune(st: State, dead: seq<Name>)
    requires |dead| > 0
    ensures Prune(if dead[0] != "" then Bury(st, dead[0]) else st, Named(dead[1..])) == Prune(st, Named(dead))
  {
    if dead[0] != "" {
      BuryIsPrune(st, dead[0]);
      PruneTwice(st, {dead[0]}, Named(dead[1..]));
      assert Named(dead) == {dead[0]} + Named(dead[1..]);
    } else {
      assert Named(dead) == Named(dead[1..]);
    }
  }

  lemma BuryIsPrune(st: State, x: Name)
    ensures Bury(st, x) == Prune(st, {x})
  {
    WithoutIsRemoveAll(st.alive, x);
    WithoutIsRemoveAll(st.werewolves, x);
    WithoutIsRemoveAll(st.villagers, x);
    WithoutIsRemoveAll(st.seer, x);
    WithoutIsRemoveAll(st.witch, x);
    WithoutIsRemoveAll(st.hunter, x);
  }

  /** Burying the same dead twice changes nothing the second time. */
  lemma UpdateAliveIdempotent(st: State, dead: seq<Name>)
    ensures UpdateAlive(UpdateAlive(st, dead), dead) == UpdateAlive(st, dead)
  {
    PruneTwice(st, Named(dead), Named(dead));
    assert Named(dead) + Named(dead) == Named(dead);
  }

  /** An empty list of dead, or one holding only empty names, is the identity. */
  lemma UpdateAliveNoDead(st: State, dead: seq<Name>)
    requires forall i :: 0 <= i < |dead| ==> dead[i] == ""
    ensures UpdateAlive(st, dead) == st
  {
    assert Named(dead) == {};
    PruneNothing(st);
  }

  /** Survivors keep their relative order, nobody is added, and exactly the
      named dead leave the alive list. */
  lemma UpdateAliveShrinks(st: State, dead: seq<Name>)
    ensures SubsequenceOf(UpdateAlive(st, dead).alive, st.alive)
    ensures forall p :: p in UpdateAlive(st, dead).alive <==> p in st.alive && (p !in dead || p == "")
  {
    RemoveAllIsSubsequence(st.alive, Named(dead));
  }

  lemma {:induction false} HoldersRemoveAll(alive: seq<Name>, roles: map<Name, Role>, rs: set<Role>, gone: set<Name>)
    ensures RemoveAll(Holders(alive, roles, rs), gone) == Holders(RemoveAll(alive, gone), roles, rs)
  {
    if |alive| > 0 {
      HoldersRemoveAll(alive[1..], roles, rs, gone);
      var head := if RoleOf(roles, alive[0]) in rs then [alive[0]] else [];
      var tail := Holders(alive[1..], roles, rs);
      assert Holders(alive, roles, rs) == head + tail;
      if head == [] {
        assert head + tail == tail;
      } else {
        assert (head + tail)[0] == alive[0];
        assert (head + tail)[1..] == tail;
      }
      if alive[0] !in gone {
        var rest := RemoveAll(alive[1..], gone);
        assert RemoveAll(alive, gone) == [alive[0]] + rest;
        assert ([alive[0]] + rest)[0] == alive[0];
        assert ([alive[0]] + rest)[1..] == rest;
      }
    }
  }

  /** Removing players keeps every roster equal to the living holders of its
      roles: a player leaves the alive list and all rosters together. */
  lemma PruneConsistent(st: State, gone: set<Name>)
    requires Consistent(st)
    ensures Consistent(Prune(st, gone))
  {
    RemoveAllDistinct(st.alive, gone);
    HoldersRemoveAll(st.alive, st.roles, WolfRoles, gone);
    HoldersRemoveAll(st.alive, st.roles, VillagerRoles, gone);
    HoldersRemoveAll(st.alive, st.roles, SeerRoles, gone);
    HoldersRemoveAll(st.alive, st.roles, WitchRoles, gone);
    HoldersRemoveAll(st.alive, st.roles, HunterRoles, gone);
  }

  /** With consistent rosters, the werewolf roster is what the win check
      counts. */
  lemma WolfRosterIsWolfCount(st: State)
    requires Consistent(st)
    ensures |st.werewolves| == WolfCount(st.alive, st.roles)
  {
    HoldersCount(st.alive, st.roles, Werewolf);
    WolfCountIsCount(st.alive, st.roles);
  }

  // ------------------------------------------------ format_player_list_str

  /** `format_player_list_str`: "无人" for nobody, otherwise the names joined
      with the enumeration comma. */
  function FormatPlayerList(players: seq<Name>): (r: string)
    ensures |players| == 0 ==> r == "无人"
    ensures |players| > 0 && (forall i :: 0 <= i < |players| ==> '、' !in players[i])
            ==> Split(r, '、') == players
  {
    if |players| == 0 then "无人"
    else
      NamesRoundTrip(players);
      Join(players, "、")
  }

  lemma NamesRoundTrip(players: seq<Name>)
    ensures |players| > 0 && (forall i :: 0 <= i < |players| ==> '、' !in players[i])
            ==> Split(Join(players, "、"), '、') == players
  {
    if |players| > 0 && (forall i :: 0 <= i < |players| ==> '、' !in players[i]) {
      assert "、" == ['、'];
      SplitJoin(players, '、');
    }
  }
}

=== FILE: memory.dfy ===
/** `Memory` (ConstructionOfClassicAgentParadigms/Reflection/Memory.py): the
    short-term memory of the reflection agent, an append-only list of typed
    records with a lookup of the latest execution and a rendering of the
    whole trajectory. */
module ReflectionMemory {
  import opened Wrappers
  import opened Text

  /** `{"type": record_type, "content": record_content}`. The type is free
      text; only "execution" and "reflection" mean anything to the readers. */
  datatype Record = Record(kind: string, content: string)

  datatype Memory = Memory(records: seq<Record>)

  const Execution: string := "execution"
  const Reflection: string := "reflection"

  /** The headings `get_trajectory` puts in front of each kind of record. */
  const ExecutionHeading: string := "--- 上一轮尝试 (代码) ---\n"
  const ReflectionHeading: string := "--- 评审员反馈 ---\n"
  const PartSeparator: string := "\n\n"

  /** `Memory()`: no records. */
  function Empty(): (m: Memory)
    ensures |m.records| == 0
  {
    Memory([])
  }

  // ---------------------------------------------------------- add_record

  /** `add_record`: the new record goes at the end; nothing before it moves
      or changes. */
  function AddRecord(m: Memory, kind: string, content: string): (r: Memory)
    ensures |r.records| == |m.records| + 1
    ensures r.records[..|m.records|] == m.records
    ensures r.records[|m.records|] == Record(kind, content)
  {
    Memory(m.records + [Record(kind, content)])
  }

  // -------------------------------------------------- get_last_execution

  /** The backwards scan of `get_last_execution` over a list of records. */
  function LastExecutionIn(records: seq<Record>): Option<string>
  {
    if |records| == 0 then None
    else if records[|records| - 1].kind == Execution then Some(records[|records| - 1].content)
    else LastExecutionIn(records[..|records| - 1])
  }

  /** The scan comes back empty exactly when no record is an execution. */
  lemma {:induction false} NoExecutionFound(records: seq<Record>)
    ensures LastExecutionIn(records).None? <==> forall i :: 0 <= i < |records| ==> records[i].kind != Execution
  {
    if |records| > 0 && records[|records| - 1].kind != Execution {
      var init := records[..|records| - 1];
      NoExecutionFound(init);
      assert forall i :: 0 <= i < |init| ==> init[i] == records[i];
    }
  }

  /** The scan returns the content of the execution record that no later
      execution follows. */
  lemma {:induction false} LatestExecutionFound(records: seq<Record>, i: nat)
    requires i < |records| && records[i].kind == Execution
    requires forall j :: i < j < |records| ==> records[j].kind != Execution
    ensures LastExecutionIn(records) == Some(records[i].content)
  {
    if i < |records| - 1 {
      var init := records[..|records| - 1];
      assert init[i] == records[i];
      LatestExecutionFound(init, i);
    }
  }

  /** `get_last_execution`: the content of the most recent execution record,
      or `None` when there is none. */
  function LastExecution(m: Memory): Option<string>
  {
    LastExecutionIn(m.records)
  }

  /** What `LastExecution` returns, in both directions: `None` exactly when
      no execution was recorded, otherwise the latest execution's content. */
  lemma LastExecutionSpec(m: Memory, i: nat)
    ensures LastExecution(m).None? <==> forall j :: 0 <= j < |m.records| ==> m.records[j].kind != Execution
    ensures i < |m.records| && m.records[i].kind == Execution && (forall j :: i < j < |m.records| ==> m.records[j].kind != Execution)
            ==> LastExecution(m) == Some(m.records[i].content)
  {
    NoExecutionFound(m.records);
    if i < |m.records| && m.records[i].kind == Execution && (forall j :: i < j < |m.records| ==> m.records[j].kind != Execution) {
      LatestExecutionFound(m.records, i);
    }
  }

  /** Right after an execution is recorded, it is the last execution. */
  lemma AddExecutionIsLast(m: Memory, content: string)
    ensures LastExecution(AddRecord(m, Execution, content)) == Some(content)
  {
    var r := AddRecord(m, Execution, content);
    assert r.records[|r.records| - 1] == Record(Execution, content);
  }

  /** Recording anything but an execution, a reflection in particular, does
      not change the last execution. */
  lemma AddOtherKeepsLastExecution(m: Memory, kind: string, content: string)
    requires kind != Execution
    ensures LastExecution(AddRecord(m, kind, content)) == LastExecution(m)
  {
    var r := AddRecord(m, kind, content);
    assert r.records[..|r.records| - 1] == m.records;
  }

  // ------------------------------------------------------ get_trajectory

  /** The part one record contributes to the trajectory, if any. */
  function PartOf(rec: Record): Option<string>
  {
    if rec.kind == Execution then Some(ExecutionHeading + rec.content)
    else if rec.kind == Reflection then Some(ReflectionHeading + rec.content)
    else None
  }

  /** The number of records `get_trajectory` renders. */
  function Rendered(records: seq<Record>): nat
  {
    if |records| == 0 then 0
    else Rendered(records[..|records| - 1]) + (if PartOf(records[|records| - 1]).Some? then 1 else 0)
  }

  /** `trajectory_parts` after the loop: one part per execution or
      reflection record, in record order. */
  function Parts(records: seq<Record>): (r: seq<string>)
    ensures |r| == Rendered(records)
    ensures |r| <= |records|
  {
    if |records| == 0 then []
    else
      var init := Parts(records[..|records| - 1]);
      match PartOf(records[|records| - 1])
      case Some(p) => init + [p]
      case None => init
  }

  /** `get_trajectory`: the parts joined with a blank line. */
  function Trajectory(m: Memory): string
  {
    Join(Parts(m.records), PartSeparator)
  }

  /** An empty memory, or one holding neither executions nor reflections,
      renders as the empty string. */
  lemma {:induction false} NothingToRender(records: seq<Record>)
    requires forall i :: 0 <= i < |records| ==> records[i].kind != Execution && records[i].kind != Reflection
    ensures Trajectory(Memory(records)) == ""
    ensures Parts(records) == []
  {
    if |records| > 0 {
      NothingToRender(records[..|records| - 1]);
      assert PartOf(records[|records| - 1]).None?;
    }
  }

  /** What one `add_record` does to the trajectory: an execution or a
      reflection adds its labelled part at the end, after a blank line when
      something was already rendered; any other record changes nothing. */
  lemma TrajectoryAfterAdd(m: Memory, kind: string, content: string)
    ensures var t := Trajectory(AddRecord(m, kind, content));
      if kind == Execution || kind == Reflection then
        var heading := if kind == Execution then ExecutionHeading else ReflectionHeading;
        t == (if Parts(m.records) == [] then heading + content
              else Trajectory(m) + PartSeparator + heading + content)
      else
        t == Trajectory(m)
  {
    var r := AddRecord(m, kind, content);
    assert r.records[..|r.records| - 1] == m.records;
    var init := Parts(m.records);
    if PartOf(Record(kind, content)).Some? {
      var p := PartOf(Record(kind, content)).value;
      assert Parts(r.records) == init + [p];
      assert (init + [p])[..|init + [p]| - 1] == init;
    }
  }

  /** Every rendered part starts with the heading of its record's kind, and
      the parts follow the records in order. */
  lemma {:induction false} PartsFollowRecords(records: seq<Record>, i: nat)
    requires i < |records| && PartOf(records[i]).Some?
    ensures Rendered(records[..i]) < |Parts(records)|
    ensures Parts(records)[Rendered(records[..i])] == PartOf(records[i]).value
    decreases |records|
  {
    var n := |records|;
    var init := records[..n - 1];
    if i == n - 1 {
      assert init == records[..i];
    } else {
      assert init[..i] == records[..i];
      assert init[i] == records[i];
      PartsFollowRecords(init, i);
    }
  }
}

=== FILE: phases.dfy ===
/** The decision logic of the night and day phases of
    `ThreeKingdomsWerewolfGame` (framework-study/AgentScopeDemo/main.py),
    each as a pure function of the state and the players' parsed replies. */
module Phases {
  import opened Wrappers
  import opened Seqs
  import opened Roles
  import opened WinCheck
  import opened VoteTally
  import opened GameState

  /** A player's reply: `Silent` when the message or its content is empty
      (also how a timed-out or failed request ends), otherwise the field the
      phase reads from the parsed JSON. */
  datatype Reply<+D> = Silent | Replied(data: D)

  /** Python truthiness of an optional name: present and not empty. */
  predicate Present(b: Ballot)
  {
    b.Some? && b.value != ""
  }

  // ------------------------------------------------------ werewolf_phase

  /** `[p.name for p in alive_players if p.name not in werewolf names]`. */
  function KillTargets(st: State): (r: seq<Name>)
    ensures forall p :: p in r <==> p in st.alive && p !in st.werewolves
  {
    RemoveAll(st.alive, set w | w in st.werewolves)
  }

  /** `random.choice(valid_targets) if valid_targets else None`; the random
      draw is the arbitrary index `pick`, folded into range. */
  function Fallback(st: State, pick: nat): (r: Ballot)
    ensures r.Some? <==> exists p :: p in st.alive && p !in st.werewolves
    ensures r.Some? ==> r.value in st.alive && r.value !in st.werewolves
  {
    var targets := KillTargets(st);
    if |targets| == 0 then None
    else
      assert targets[pick % |targets|] in targets;
      Some(targets[pick % |targets|])
  }

  /** Every living non-werewolf is a possible fallback target, so the pick
      parameter covers exactly what `random.choice` can return. */
  lemma FallbackReachesEveryTarget(st: State, p: Name)
    requires p in st.alive && p !in st.werewolves
    ensures exists pick: nat :: Fallback(st, pick) == Some(p)
  {
    var targets := KillTargets(st);
    assert p in targets;
    var i :| 0 <= i < |targets| && targets[i] == p;
    assert i % |targets| == i;
    assert Fallback(st, i) == Some(targets[i]);
  }

  /** The ballot stored for one werewolf: its named target (possibly `None`
      when the parsed reply has no `target`), or the fallback when silent. */
  function KillBallot(st: State, reply: Reply<Ballot>, pick: nat): Ballot
  {
    match reply
    case Silent => Fallback(st, pick)
    case Replied(target) => target
  }

  function KillBallots(st: State, reply: Name -> Reply<Ballot>, pick: Name -> nat): (r: seq<Ballot>)
    ensures |r| == |st.werewolves|
    ensures forall i :: 0 <= i < |r| ==> r[i] == KillBallot(st, reply(st.werewolves[i]), pick(st.werewolves[i]))
  {
    seq(|st.werewolves|, i requires 0 <= i < |st.werewolves| =>
      KillBallot(st, reply(st.werewolves[i]), pick(st.werewolves[i])))
  }

  /** `werewolf_phase`: no kill without living werewolves; otherwise the
      tally of the pack's ballots, so the target is a ballot some werewolf
      cast, no ballot got more votes, and of the ballots with as many votes
      it is the one cast first. */
  function WerewolfPhase(st: State, reply: Name -> Reply<Ballot>, pick: Name -> nat): (r: Ballot)
    ensures st.werewolves == [] ==> r == None
    ensures st.werewolves != [] ==>
      exists i :: 0 <= i < |st.werewolves| && r == KillBallot(st, reply(st.werewolves[i]), pick(st.werewolves[i]))
    ensures st.werewolves != [] ==>
      var ballots := KillBallots(st, reply, pick);
      && r in ballots
      && (forall b :: Count(ballots, b) <= Count(ballots, r))
      && forall j :: 0 <= j < |ballots| && Count(ballots, ballots[j]) == Count(ballots, r) ==> FirstIndex(ballots, r) <= j
  {
    if st.werewolves == [] then None
    else
      var ballots := KillBallots(st, reply, pick);
      var r := MajorityVote(ballots).0;
      assert exists i :: 0 <= i < |ballots| && ballots[i] == r;
      r
  }

  /** A pack that says nothing still kills: a living non-werewolf whenever
      there is one, and nobody otherwise. */
  lemma SilentPackKillsLivingVillager(st: State, reply: Name -> Reply<Ballot>, pick: Name -> nat)
    requires st.werewolves != []
    requires forall w :: reply(w) == Silent
    ensures var r := WerewolfPhase(st, reply, pick);
      && (r.Some? <==> exists p :: p in st.alive && p !in st.werewolves)
      && (r.Some? ==> r.value in st.alive && r.value !in st.werewolves)
  {
    var r := WerewolfPhase(st, reply, pick);
    var i :| 0 <= i < |st.werewolves| && r == KillBallot(st, reply(st.werewolves[i]), pick(st.werewolves[i]));
    assert r == Fallback(st, pick(st.werewolves[i]));
  }

  /** Two werewolves naming different targets tie one vote each; the
      `Counter` keeps insertion order, so the first werewolf's target is
      killed. */
  lemma SplitPackFollowsFirstWolf(st: State, reply: Name -> Reply<Ballot>, pick: Name -> nat, a: Name, b: Name)
    requires |st.werewolves| == 2 && a != b
    requires reply(st.werewolves[0]) == Replied(Some(a))
    requires reply(st.werewolves[1]) == Replied(Some(b))
    ensures WerewolfPhase(st, reply, pick) == Some(a)
  {
    var ballots := KillBallots(st, reply, pick);
    assert ballots == [Some(a), Some(b)];
    assert ballots[1..] == [Some(b)];
    assert ballots[1..][1..] == [];
    forall x ensures Count(ballots, x) == (if x == Some(a) then 1 else 0) + (if x == Some(b) then 1 else 0) {
      assert Count(ballots[1..], x) == (if x == Some(b) then 1 else 0) + Count(ballots[1..][1..], x);
    }
    MajorityVoteUnique(ballots, Some(a));
  }

  // ---------------------------------------------------------- seer_phase

  datatype Verdict = LooksWerewolf | LooksGood

  /** The private result the moderator tells the seer. */
  datatype Inspection = Inspection(target: Name, verdict: Verdict)

  /** `seer_phase`: with a living seer and a non-empty target the seer learns
      whether the target's recorded role is werewolf; the exact role stays
      hidden, and an empty reply yields nothing (no fallback). */
  function SeerPhase(st: State, target: Ballot): (r: Option<Inspection>)
    ensures r.Some? <==> st.seer != [] && Present(target)
    ensures r.Some? ==> r.value.target == target.value
    ensures r.Some? ==> (r.value.verdict == LooksWerewolf <==> RoleOf(st.roles, target.value) == Werewolf)
  {
    if st.seer == [] || !Present(target) then None
    else Some(Inspection(target.value, if RoleOf(st.roles, target.value) == Werewolf then LooksWerewolf else LooksGood))
  }

  /** On a consistent table the seer's verdict on a living player says
      exactly whether that player is on the werewolf roster. */
  lemma SeerSeesWolfRoster(st: State, target: Name)
    requires Consistent(st) && st.seer != [] && target in st.alive && target != ""
    ensures SeerPhase(st, Some(target)).value.verdict == LooksWerewolf <==> target in st.werewolves
  {
    HoldersMember(st.alive, st.roles, WolfRoles, target);
  }

  lemma {:induction false} HoldersMember(alive: seq<Name>, roles: map<Name, Role>, rs: set<Role>, p: Name)
    ensures p in Holders(alive, roles, rs) <==> p in alive && RoleOf(roles, p) in rs
  {
    if |alive| > 0 {
      HoldersMember(alive[1..], roles, rs, p);
      assert alive == [alive[0]] + alive[1..];
    }
  }

  // --------------------------------------------------------- witch_phase

  /** The fields `witch_phase` reads from a non-empty parsed reply. */
  datatype WitchDecision = WitchDecision(useAntidote: bool, usePoison: bool, targetName: Ballot)

  /** What `witch_phase` hands back, with the potion flags it changed. */
  datatype WitchOutcome = WitchOutcome(state: State, finalKilled: Ballot, poisoned: Ballot)

  /** The antidote is spent: a living witch asked for it, still holds it, and
      somebody was killed. */
  predicate AntidoteUsed(st: State, killed: Ballot, decision: Option<WitchDecision>)
  {
    st.witch != [] && decision.Some? && decision.value.useAntidote && st.hasAntidote && Present(killed)
  }

  /** The poison is poured: a living witch asked for it and still holds it. */
  predicate PoisonPoured(st: State, decision: Option<WitchDecision>)
  {
    st.witch != [] && decision.Some? && decision.value.usePoison && st.hasPoison
  }

  /** `witch_phase(killed)`; `decision` is `None` when the reply is empty or
      nothing could be parsed from it. The poison flag only drops when the
      poured poison names somebody. */
  function WitchPhase(st: State, killed: Ballot, decision: Option<WitchDecision>): (r: WitchOutcome)
    ensures r.state == st.(hasAntidote := r.state.hasAntidote, hasPoison := r.state.hasPoison)
    ensures r.state.hasAntidote == (st.hasAntidote && !AntidoteUsed(st, killed, decision))
    ensures r.state.hasPoison == (st.hasPoison && !(PoisonPoured(st, decision) && Present(decision.value.targetName)))
    ensures r.finalKilled == if AntidoteUsed(st, killed, decision) then None else killed
    ensures r.poisoned == if PoisonPoured(st, decision) then decision.value.targetName else None
  {
    if st.witch == [] || decision.None? then WitchOutcome(st, killed, None)
    else
      var d := decision.value;
      var saved := d.useAntidote && st.hasAntidote && Present(killed);
      var poisoned := if d.usePoison && st.hasPoison then d.targetName else None;
      var st' := st.(hasAntidote := st.hasAntidote && !saved,
                     hasPoison := st.hasPoison && !Present(poisoned));
      WitchOutcome(st', if saved then None else killed, poisoned)
  }

  /** Potions only ever go from held to spent, and an empty reply spends
      nothing and leaves the kill standing. */
  lemma PotionsOnlyDeplete(st: State, killed: Ballot, decision: Option<WitchDecision>)
    ensures WitchPhase(st, killed, decision).state.hasAntidote ==> st.hasAntidote
    ensures WitchPhase(st, killed, decision).state.hasPoison ==> st.hasPoison
    ensures decision.None? ==> WitchPhase(st, killed, decision) == WitchOutcome(st, killed, None)
  {
  }

  /** `[p for p in [a, b] if p]`: the non-empty names among two results, in
      order. */
  function Casualties(a: Ballot, b: Ballot): (r: seq<Name>)
    ensures |r| == (if Present(a) then 1 else 0) + (if Present(b) then 1 else 0)
    ensures forall x :: x in r <==> x != "" && (a == Some(x) || b == Some(x))
    ensures Present(a) ==> r[0] == a.value
    ensures Present(b) ==> r[|r| - 1] == b.value
  {
    (if Present(a) then [a.value] else []) + (if Present(b) then [b.value] else [])
  }

  /** The night's dead: whoever the wolves killed unless saved, plus whoever
      was poisoned. */
  function NightDeaths(w: WitchOutcome): (r: seq<Name>)
    ensures |r| <= 2
  {
    Casualties(w.finalKilled, w.poisoned)
  }

  /** A saved player who is also poisoned still dies; a saved player who is
      not poisoned lives; a kill and a different poisoning both land. */
  lemma NightResolutionExamples(st: State)
    requires st.witch != [] && st.hasAntidote && st.hasPoison
    ensures NightDeaths(WitchPhase(st, Some("P1"), Some(WitchDecision(true, true, Some("P1"))))) == ["P1"]
    ensures NightDeaths(WitchPhase(st, Some("P1"), Some(WitchDecision(true, false, None)))) == []
    ensures NightDeaths(WitchPhase(st, Some("P1"), Some(WitchDecision(false, true, Some("P2"))))) == ["P1", "P2"]
  {
  }

  /** Once the antidote is spent, asking for it again is a no-op. */
  lemma SecondAntidoteIsNoOp(st: State, killed: Ballot, decision: Option<WitchDecision>)
    requires !st.hasAntidote
    ensures WitchPhase(st, killed, decision).finalKilled == killed
    ensures !WitchPhase(st, killed, decision).state.hasAntidote
  {
  }

  // ------------------------------------------------------------ day_phase

  /** The ballot stored for one voter: silence is an abstention, `None`. */
  function DayBallot(reply: Reply<Ballot>): Ballot
  {
    match reply
    case Silent => None
    case Replied(vote) => vote
  }

  function DayBallots(st: State, reply: Name -> Reply<Ballot>): (r: seq<Ballot>)
    ensures |r| == |st.alive|
    ensures forall i :: 0 <= i < |r| ==> r[i] == DayBallot(reply(st.alive[i]))
  {
    seq(|st.alive|, i requires 0 <= i < |st.alive| => DayBallot(reply(st.alive[i])))
  }

  /** `day_phase`: every living player votes and the tally picks the exiled
      player and the vote count announced for it: the ballot cast most
      often, the first cast among equally frequent ones, with its count. */
  function DayPhase(st: State, reply: Name -> Reply<Ballot>): (r: (Ballot, nat))
    ensures st.alive == [] ==> r == (Some(NoOne), 0)
    ensures st.alive != [] ==> 1 <= r.1 <= |st.alive|
    ensures st.alive != [] ==> exists i :: 0 <= i < |st.alive| && r.0 == DayBallot(reply(st.alive[i]))
    ensures st.alive != [] ==>
      var ballots := DayBallots(st, reply);
      && r.0 in ballots
      && r.1 == Count(ballots, r.0)
      && (forall b :: Count(ballots, b) <= r.1)
      && forall j :: 0 <= j < |ballots| && Count(ballots, ballots[j]) == r.1 ==> FirstIndex(ballots, r.0) <= j
  {
    var ballots := DayBallots(st, reply);
    TallyBounds(ballots);
    MajorityVote(ballots)
  }

  lemma TallyBounds(ballots: seq<Ballot>)
    ensures |ballots| > 0 ==> 1 <= MajorityVote(ballots).1 <= |ballots|
    ensures |ballots| > 0 ==> exists i :: 0 <= i < |ballots| && ballots[i] == MajorityVote(ballots).0
  {
    if |ballots| > 0 {
      var r := MajorityVote(ballots);
      CountPositive(ballots, r.0);
      CountBound(ballots, r.0);
    }
  }

  lemma {:induction false} CountBound<T>(s: seq<T>, x: T)
    ensures Count(s, x) <= |s|
  {
    if |s| > 0 {
      CountBound(s[1..], x);
    }
  }

  /** When every living player stays silent the code does not report
      "nobody": `None` collects every vote and is the exiled "name". */
  lemma AllAbstainExilesNone(st: State, reply: Name -> Reply<Ballot>)
    requires st.alive != []
    requires forall p :: reply(p) == Silent
    ensures DayPhase(st, reply) == (None, |st.alive|)
  {
    var ballots := DayBallots(st, reply);
    var none: Ballot := None;
    assert ballots == Repeat(none, |st.alive|);
    CountRepeat(none, |st.alive|, none);
    forall b: Ballot ensures Count(ballots, b) <= Count(ballots, none) {
      CountRepeat(none, |st.alive|, b);
    }
    MajorityVoteUnique(ballots, none);
  }

  // ---------------------------------------------------------- hunter_phase

  /** The fields `hunter_phase` reads from a non-empty parsed reply. */
  datatype HunterDecision = HunterDecision(shoot: bool, target: Ballot)

  /** `hunter_phase(voted_out)`: a shot only when the living hunter is the
      exiled player, replied, chose to shoot and named a target. */
  function HunterPhase(st: State, exiled: Ballot, decision: Option<HunterDecision>): (r: Ballot)
    ensures r.Some? <==> st.hunter != [] && exiled == Some(st.hunter[0])
                         && decision.Some? && decision.value.shoot && Present(decision.value.target)
    ensures r.Some? ==> r == decision.value.target
  {
    if st.hunter == [] then None
    else if exiled != Some(st.hunter[0]) then None
    else if decision.None? then None
    else if decision.value.shoot && Present(decision.value.target) then decision.value.target
    else None
  }

  /** On a consistent table only a living hunter who was exiled shoots. */
  lemma OnlyExiledHunterShoots(st: State, exiled: Ballot, decision: Option<HunterDecision>)
    requires Consistent(st)
    requires HunterPhase(st, exiled, decision).Some?
    ensures exiled.Some? && exiled.value in st.alive && RoleOf(st.roles, exiled.value) == Hunter
  {
    HoldersMember(st.alive, st.roles, HunterRoles, st.hunter[0]);
  }
}

=== FILE: roles.dfy ===
/** The role catalogue of the werewolf game and its standard role mixes
    (`GameRoles` in framework-study/AgentScopeDemo/main.py). */
module Roles {
  import opened Wrappers
  import opened Seqs

  datatype Role = Werewolf | Seer | Witch | Hunter | Villager | Guardian

  datatype Team = WerewolfTeam | GoodTeam

  /** The catalogue's `team` entry of each role. */
  function TeamOf(role: Role): Team
  {
    match role
    case Werewolf => WerewolfTeam
    case Seer => GoodTeam
    case Witch => GoodTeam
    case Hunter => GoodTeam
    case Villager => GoodTeam
    case Guardian => GoodTeam
  }

  /** `is_werewolf`: a string comparison with the werewolf role name. */
  predicate IsWerewolf(role: Role)
  {
    role == Werewolf
  }

  /** `is_villager_team`: the catalogue lists the role in the good team. */
  predicate IsVillagerTeam(role: Role)
    ensures IsVillagerTeam(role) <==> !IsWerewolf(role)
  {
    TeamOf(role) == GoodTeam
  }

  /** The role names the source uses as dictionary keys. */
  function RoleName(role: Role): string
  {
    match role
    case Werewolf => "狼人"
    case Seer => "预言家"
    case Witch => "女巫"
    case Hunter => "猎人"
    case Villager => "村民"
    case Guardian => "守护者"
  }

  /** Reads a role name back; any string outside the catalogue is no role. */
  function ParseRole(s: string): (r: Option<Role>)
    ensures r.Some? ==> RoleName(r.value) == s
    ensures r.None? ==> forall role: Role :: RoleName(role) != s
  {
    if s == "狼人" then Some(Werewolf)
    else if s == "预言家" then Some(Seer)
    else if s == "女巫" then Some(Witch)
    else if s == "猎人" then Some(Hunter)
    else if s == "村民" then Some(Villager)
    else if s == "守护者" then Some(Guardian)
    else None
  }

  /** The enum and the source's role strings are in one-to-one correspondence. */
  lemma RoleNameRoundTrip(role: Role)
    ensures ParseRole(RoleName(role)) == Some(role)
  {
  }

  /** How many players hold each role in a mix. */
  datatype Mix = Mix(werewolves: nat, seers: nat, witches: nat, hunters: nat, guardians: nat, villagers: nat)

  function Composition(roles: seq<Role>): Mix
  {
    Mix(Count(roles, Werewolf), Count(roles, Seer), Count(roles, Witch),
        Count(roles, Hunter), Count(roles, Guardian), Count(roles, Villager))
  }

  /** Werewolves in a generated mix: a third of the table rounded down, at
      least one (Dafny's `/` by a positive divisor floors like Python's `//`). */
  function WolfQuota(n: int): nat
  {
    if n / 3 >= 1 then n / 3 else 1
  }

  /** The compositions the game promises: the curated table for 6, 8 and 9
      players, otherwise the quota of werewolves, then one Seer, one Witch and
      one Hunter while seats remain, then villagers. */
  function ExpectedMix(n: int): Mix
  {
    if n == 6 then Mix(2, 1, 1, 0, 0, 2)
    else if n == 8 then Mix(3, 1, 1, 1, 0, 2)
    else if n == 9 then Mix(3, 1, 1, 1, 1, 2)
    else
      var rest := n - WolfQuota(n);
      Mix(WolfQuota(n),
          if rest >= 1 then 1 else 0,
          if rest >= 2 then 1 else 0,
          if rest >= 3 then 1 else 0,
          0,
          if rest >= 3 then rest - 3 else 0)
  }

  /** The generated mix of the `else` branch of `get_standard_setup`. */
  function GeneratedSetup(n: int): seq<Role>
  {
    Generated(WolfQuota(n), n - WolfQuota(n))
  }

  /** `wolves` werewolves, then the special roles and villagers for the
      `rest` remaining seats. */
  function Generated(wolves: nat, rest: int): seq<Role>
  {
    Repeat(Werewolf, wolves)
    + (if rest >= 1 then [Seer] else [])
    + (if rest >= 2 then [Witch] else [])
    + (if rest >= 3 then [Hunter] else [])
    + Repeat(Villager, if rest >= 3 then rest - 3 else 0)
  }

  /** `get_standard_setup`: one role per seat. For n <= 0 the code still
      hands out one werewolf, and that is what is modelled. */
  function StandardSetup(n: int): (r: seq<Role>)
    ensures n >= 1 ==> |r| == n
    ensures n <= 0 ==> r == [Werewolf]
    ensures Composition(r) == ExpectedMix(n)
    ensures forall i :: 0 <= i < |r| && i < ExpectedMix(n).werewolves ==> r[i] == Werewolf
  {
    if n == 6 || n == 8 || n == 9 then
      CuratedComposition(n);
      CuratedSetup(n)
    else
      GeneratedComposition(n);
      GeneratedSetup(n)
  }

  /** Only the curated nine-player table seats a Guardian; generated mixes
      never do. */
  lemma GuardianOnlyAtNine(n: int)
    ensures Guardian in StandardSetup(n) <==> n == 9
  {
    CountPositive(StandardSetup(n), Guardian);
  }

  /** Generated mixes hold at most one Seer, one Witch and one Hunter, and
      they are seated in that priority order: a Witch only with a Seer, a
      Hunter only with a Witch. */
  lemma GeneratedSpecialRoles(n: int)
    requires n != 6 && n != 8 && n != 9
    ensures var m := Composition(StandardSetup(n));
      && m.seers <= 1 && m.witches <= 1 && m.hunters <= 1 && m.guardians == 0
      && m.hunters <= m.witches <= m.seers
      && m.werewolves == (if n / 3 >= 1 then n / 3 else 1)
  {
  }

  /** The three curated mixes, in the source's seat order. */
  function CuratedSetup(n: int): seq<Role>
    requires n == 6 || n == 8 || n == 9
  {
    if n == 6 then [Werewolf, Werewolf, Seer, Witch, Villager, Villager]
    else if n == 8 then [Werewolf, Werewolf, Werewolf, Seer, Witch, Hunter, Villager, Villager]
    else [Werewolf, Werewolf, Werewolf, Seer, Witch, Hunter, Guardian, Villager, Villager]
  }

  lemma CuratedComposition(n: int)
    requires n == 6 || n == 8 || n == 9
    ensures |CuratedSetup(n)| == n
    ensures Composition(CuratedSetup(n)) == ExpectedMix(n)
    ensures forall i :: 0 <= i < ExpectedMix(n).werewolves ==> CuratedSetup(n)[i] == Werewolf
  {
    if n == 6 {
      Curated6();
      assert ExpectedMix(n).werewolves == 2;
    } else if n == 8 {
      Curated8();
      assert ExpectedMix(n).werewolves == 3;
    } else {
      Curated9();
      assert ExpectedMix(n).werewolves == 3;
    }
  }

  lemma Curated6()
    ensures Composition([Werewolf, Werewolf, Seer, Witch, Villager, Villager]) == Mix(2, 1, 1, 0, 0, 2)
  {
  }

  lemma Curated8()
    ensures Composition([Werewolf, Werewolf, Werewolf, Seer, Witch, Hunter, Villager, Villager])
         == Mix(3, 1, 1, 1, 0, 2)
  {
  }

  lemma Curated9()
    ensures Composition([Werewolf, Werewolf, Werewolf, Seer, Witch, Hunter, Guardian, Villager, Villager])
         == Mix(3, 1, 1, 1, 1, 2)
  {
  }

  lemma GeneratedComposition(n: int)
    requires n != 6 && n != 8 && n != 9
    ensures n >= 1 ==> |GeneratedSetup(n)| == n
    ensures n <= 0 ==> GeneratedSetup(n) == [Werewolf]
    ensures Composition(GeneratedSetup(n)) == ExpectedMix(n)
    ensures forall i :: 0 <= i < WolfQuota(n) ==> GeneratedSetup(n)[i] == Werewolf
  {
    GeneratedShape(n);
    GeneratedCounts(n);
  }

  /** The generated mix as its five stretches: werewolves, the optional
      Seer, Witch and Hunter, then villagers. */
  lemma GeneratedShape(n: int)
    ensures var rest := n - WolfQuota(n);
      GeneratedSetup(n)
      == Repeat(Werewolf, WolfQuota(n))
         + ((if rest >= 1 then [Seer] else [])
            + (if rest >= 2 then [Witch] else [])
            + (if rest >= 3 then [Hunter] else [])
            + Repeat(Villager, if rest >= 3 then rest - 3 else 0))
    ensures n >= 1 ==> |GeneratedSetup(n)| == n
    ensures n <= 0 ==> GeneratedSetup(n) == [Werewolf]
    ensures forall i :: 0 <= i < WolfQuota(n) ==> GeneratedSetup(n)[i] == Werewolf
  {
    var wolves := WolfQuota(n);
    var a := Repeat(Werewolf, wolves);
    var rest := n - wolves;
    var tail := (if rest >= 1 then [Seer] else [])
                + (if rest >= 2 then [Witch] else [])
                + (if rest >= 3 then [Hunter] else [])
                + Repeat(Villager, if rest >= 3 then rest - 3 else 0);
    assert GeneratedSetup(n) == a + tail;
    forall i | 0 <= i < wolves
      ensures GeneratedSetup(n)[i] == Werewolf
    {
      assert (a + tail)[i] == a[i];
    }
    if n <= 0 {
      assert a == [Werewolf] && tail == [];
    }
  }

  lemma GeneratedCounts(n: int)
    requires n != 6 && n != 8 && n != 9
    ensures Composition(GeneratedSetup(n)) == ExpectedMix(n)
  {
    StretchCounts(WolfQuota(n), n - WolfQuota(n));
  }

  lemma StretchCounts(wolves: nat, rest: int)
    ensures Composition(Generated(wolves, rest))
         == Mix(wolves,
                if rest >= 1 then 1 else 0,
                if rest >= 2 then 1 else 0,
                if rest >= 3 then 1 else 0,
                0,
                if rest >= 3 then rest - 3 else 0)
  {
    var a := Repeat(Werewolf, wolves);
    var b := if rest >= 1 then [Seer] else [];
    var c := if rest >= 2 then [Witch] else [];
    var d := if rest >= 3 then [Hunter] else [];
    var e := Repeat(Villager, if rest >= 3 then rest - 3 else 0);
    assert Generated(wolves, rest) == a + b + c + d + e;
    forall role: Role
      ensures Count(Generated(wolves, rest), role)
           == Count(a, role) + Count(b, role) + Count(c, role) + Count(d, role) + Count(e, role)
    {
      CountAppend(a + b + c + d, e, role);
      CountAppend(a + b + c, d, role);
      CountAppend(a + b, c, role);
      CountAppend(a, b, role);
    }
    forall role: Role
      ensures Count(a, role) == (if role == Werewolf then wolves else 0)
      ensures Count(e, role) == (if role == Villager then |e| else 0)
    {
      CountRepeat(Werewolf, wolves, role);
      CountRepeat(Villager, |e|, role);
    }
    forall role: Role
      ensures Count(b, role) == (if role == Seer && rest >= 1 then 1 else 0)
      ensures Count(c, role) == (if role == Witch && rest >= 2 then 1 else 0)
      ensures Count(d, role) == (if role == Hunter && rest >= 3 then 1 else 0)
    {
    }
  }
}

=== FILE: seqs.dfy ===
/** Sequence helpers: occurrence counts and order-preserving removal of names. */
module Seqs {

  /** Number of occurrences of `x` in `s`. */
  function Count<T(==)>(s: seq<T>, x: T): nat
  {
    if |s| == 0 then 0 else (if s[0] == x then 1 else 0) + Count(s[1..], x)
  }

  lemma {:induction false} CountPositive<T(!new)>(s: seq<T>, x: T)
    ensures Count(s, x) > 0 <==> x in s
  {
    if |s| > 0 {
      CountPositive(s[1..], x);
      assert x in s <==> s[0] == x || x in s[1..];
    }
  }

  lemma {:induction false} CountAppend<T(!new)>(a: seq<T>, b: seq<T>, x: T)
    ensures Count(a + b, x) == Count(a, x) + Count(b, x)
  {
    if |a| > 0 {
      assert (a + b)[1..] == a[1..] + b;
      CountAppend(a[1..], b, x);
    } else {
      assert a + b == b;
    }
  }

  /** `n` copies of `x`, Python's `[x] * n`. */
  function Repeat<T>(x: T, n: nat): (r: seq<T>)
    ensures |r| == n
    ensures forall i :: 0 <= i < n ==> r[i] == x
  {
    if n == 0 then [] else [x] + Repeat(x, n - 1)
  }

  lemma {:induction false} CountRepeat<T(!new)>(x: T, n: nat, y: T)
    ensures Count(Repeat(x, n), y) == if x == y then n else 0
  {
    if n > 0 {
      assert Repeat(x, n)[1..] == Repeat(x, n - 1);
      CountRepeat(x, n - 1, y);
    }
  }

  /** No element occurs twice. */
  ghost predicate Distinct<T>(s: seq<T>)
  {
    forall i, j :: 0 <= i < j < |s| ==> s[i] != s[j]
  }

  /** `a` can be obtained from `b` by deleting elements (order is kept). */
  ghost predicate SubsequenceOf<T>(a: seq<T>, b: seq<T>)
    decreases |b|
  {
    if |a| == 0 then true
    else if |b| == 0 then false
    else if a[0] == b[0] then SubsequenceOf(a[1..], b[1..])
    else SubsequenceOf(a, b[1..])
  }

  /** Every element of `s` outside `gone`, in the order of `s`: the reference
      definition of removing a set of names from a list. */
  function RemoveAll<T(==,!new)>(s: seq<T>, gone: set<T>): (r: seq<T>)
    ensures |r| <= |s|
    ensures forall y :: y in r <==> y in s && y !in gone
  {
    if |s| == 0 then []
    else if s[0] in gone then RemoveAll(s[1..], gone)
    else [s[0]] + RemoveAll(s[1..], gone)
  }

  /** `[p for p in s if p != x]`: one pass of the source's list comprehension. */
  function Without<T(==,!new)>(s: seq<T>, x: T): seq<T>
  {
    if |s| == 0 then []
    else if s[0] == x then Without(s[1..], x)
    else [s[0]] + Without(s[1..], x)
  }

  lemma {:induction false} WithoutIsRemoveAll<T(!new)>(s: seq<T>, x: T)
    ensures Without(s, x) == RemoveAll(s, {x})
  {
    if |s| > 0 {
      WithoutIsRemoveAll(s[1..], x);
    }
  }

  lemma {:induction false} RemoveAllNothing<T(!new)>(s: seq<T>)
    ensures RemoveAll(s, {}) == s
  {
    if |s| > 0 {
      RemoveAllNothing(s[1..]);
      assert s == [s[0]] + s[1..];
    }
  }

  /** Removing `a` then `b` is removing `a + b` at once. */
  lemma {:induction false} RemoveAllTwice<T(!new)>(s: seq<T>, a: set<T>, b: set<T>)
    ensures RemoveAll(RemoveAll(s, a), b) == RemoveAll(s, a + b)
  {
    if |s| > 0 {
      RemoveAllTwice(s[1..], a, b);
      if s[0] !in a {
        assert RemoveAll(s, a) == [s[0]] + RemoveAll(s[1..], a);
        assert ([s[0]] + RemoveAll(s[1..], a))[1..] == RemoveAll(s[1..], a);
      }
    }
  }

  lemma RemoveAllIdempotent<T(!new)>(s: seq<T>, a: set<T>)
    ensures RemoveAll(RemoveAll(s, a), a) == RemoveAll(s, a)
  {
    RemoveAllTwice(s, a, a);
    assert a + a == a;
  }

  /** Removal keeps the survivors in their original relative order. */
  lemma {:induction false} RemoveAllIsSubsequence<T(!new)>(s: seq<T>, a: set<T>)
    ensures SubsequenceOf(RemoveAll(s, a), s)
  {
    if |s| > 0 {
      RemoveAllIsSubsequence(s[1..], a);
      var r := RemoveAll(s, a);
      if s[0] !in a {
        assert r[0] == s[0] && r[1..] == RemoveAll(s[1..], a);
      } else {
        SubsequenceSkip(r, s);
      }
    }
  }

  lemma {:induction false} SubsequenceSkip<T(!new)>(a: seq<T>, b: seq<T>)
    requires |b| > 0 && SubsequenceOf(a, b[1..])
    ensures SubsequenceOf(a, b)
    decreases |b|, 1
  {
    if |a| > 0 && a[0] == b[0] {
      SubsequenceSkipHead(a, b[1..]);
    }
  }

  lemma {:induction false} SubsequenceSkipHead<T(!new)>(a: seq<T>, b: seq<T>)
    requires |a| > 0 && SubsequenceOf(a, b)
    ensures SubsequenceOf(a[1..], b)
    decreases |b| + 1, 0
  {
    if |b| > 0 {
      if a[0] == b[0] {
        SubsequenceSkip(a[1..], b);
      } else {
        SubsequenceSkipHead(a, b[1..]);
        SubsequenceSkip(a[1..], b);
      }
    }
  }

  lemma {:induction false} SubsequenceTrans<T(!new)>(a: seq<T>, b: seq<T>, c: seq<T>)
    requires SubsequenceOf(a, b) && SubsequenceOf(b, c)
    ensures SubsequenceOf(a, c)
    decreases |c|
  {
    if |a| > 0 {
      if b[0] == c[0] {
        if a[0] == b[0] {
          SubsequenceTrans(a[1..], b[1..], c[1..]);
        } else {
          SubsequenceTrans(a, b[1..], c[1..]);
          SubsequenceSkip(a, c);
        }
      } else {
        SubsequenceTrans(a, b, c[1..]);
        SubsequenceSkip(a, c);
      }
    }
  }

  lemma {:induction false} SubsequenceRefl<T(!new)>(a: seq<T>)
    ensures SubsequenceOf(a, a)
  {
    if |a| > 0 {
      SubsequenceRefl(a[1..]);
    }
  }

  lemma {:induction false} RemoveAllDistinct<T(!new)>(s: seq<T>, a: set<T>)
    requires Distinct(s)
    ensures Distinct(RemoveAll(s, a))
  {
    if |s| > 0 {
      assert Distinct(s[1..]) by {
        forall i, j | 0 <= i < j < |s[1..]| ensures s[1..][i] != s[1..][j] {
          assert s[1..][i] == s[i + 1] && s[1..][j] == s[j + 1];
        }
      }
      RemoveAllDistinct(s[1..], a);
      if s[0] !in a {
        var t := RemoveAll(s[1..], a);
        forall k | 0 <= k < |s[1..]| ensures s[1..][k] != s[0] {
          assert s[1..][k] == s[k + 1];
        }
        assert s[0] !in t;
        forall i, j | 0 <= i < j < |[s[0]] + t| ensures ([s[0]] + t)[i] != ([s[0]] + t)[j] {
          if i == 0 {
            assert ([s[0]] + t)[j] == t[j - 1];
          } else {
            assert ([s[0]] + t)[i] == t[i - 1] && ([s[0]] + t)[j] == t[j - 1];
          }
        }
      }
    }
  }
}

/** Joining strings with a separator, Python's `sep.join(parts)`. */
module Text {

  function Join<T>(parts: seq<seq<T>>, sep: seq<T>): seq<T>
  {
    if |parts| == 0 then []
    else if |parts| == 1 then parts[0]
    else Join(parts[..|parts| - 1], sep) + sep + parts[|parts| - 1]
  }

  /** Splits `s` at every occurrence of the one-element separator `c`
      (Python's `s.split(c)`); used to read a joined list back. */
  function Split<T(==)>(s: seq<T>, c: T): (r: seq<seq<T>>)
    ensures |r| > 0
  {
    if |s| == 0 then [[]]
    else
      var rest := Split(s[..|s| - 1], c);
      if s[|s| - 1] == c then rest + [[]]
      else rest[..|rest| - 1] + [rest[|rest| - 1] + [s[|s| - 1]]]
  }

  lemma {:induction false} SplitNoSeparator<T>(s: seq<T>, c: T)
    requires c !in s
    ensures Split(s, c) == [s]
  {
    if |s| > 0 {
      SplitNoSeparator(s[..|s| - 1], c);
      assert s[..|s| - 1] + [s[|s| - 1]] == s;
    }
  }

  /** Splitting `a + [c] + b` where `b` has no `c` adds `b` as a new part. */
  lemma {:induction false} SplitAfterSeparator<T>(a: seq<T>, c: T, b: seq<T>)
    requires c !in b
    ensures Split(a + [c] + b, c) == Split(a, c) + [b]
    decreases |b|
  {
    if |b| == 0 {
      assert a + [c] + b == a + [c];
      assert (a + [c])[..|a + [c]| - 1] == a;
    } else {
      var s := a + [c] + b;
      var b' := b[..|b| - 1];
      assert s[..|s| - 1] == a + [c] + b';
      SplitAfterSeparator(a, c, b');
      assert b' + [b[|b| - 1]] == b;
    }
  }

  /** Joining with a one-element separator that occurs in no part is undone
      by splitting at that separator. */
  lemma {:induction false} SplitJoin<T>(parts: seq<seq<T>>, c: T)
    requires |parts| > 0
    requires forall i :: 0 <= i < |parts| ==> c !in parts[i]
    ensures Split(Join(parts, [c]), c) == parts
  {
    if |parts| == 1 {
      SplitNoSeparator(parts[0], c);
    } else {
      var init := parts[..|parts| - 1];
      SplitJoin(init, c);
      SplitAfterSeparator(Join(init, [c]), c, parts[|parts| - 1]);
      assert init + [parts[|parts| - 1]] == parts;
    }
  }
}

=== FILE: vote_tally.dfy ===
/** `majority_vote_cn` (framework-study/AgentScopeDemo/main.py): a
    `Counter` over the ballots, read with `most_common(1)`. */
module VoteTally {
  import opened Wrappers
  import opened Seqs

  /** A ballot as it is stored in the `votes` dictionary: a name, or `None`
      when the reply named nobody. `None` is a ballot like any other. */
  type Ballot = Option<string>

  /** The winner reported when nobody voted at all. */
  const NoOne: string := "无人"

  /** Index of the first occurrence of `x` in `s`. */
  function FirstIndex<T(==)>(s: seq<T>, x: T): (k: nat)
    requires x in s
    ensures k < |s| && s[k] == x
    ensures forall j :: 0 <= j < k ==> s[j] != x
  {
    if s[0] == x then 0 else 1 + FirstIndex(s[1..], x)
  }

  lemma FirstIndexIs<T>(s: seq<T>, k: nat)
    requires k < |s|
    requires forall j :: 0 <= j < k ==> s[j] != s[k]
    ensures FirstIndex(s, s[k]) == k
  {
    var f := FirstIndex(s, s[k]);
    assert s[f] == s[k];
  }

  /** `k` is the index a first-seen, most-common scan settles on: no value is
      more frequent than `s[k]`, and every earlier value is strictly rarer. */
  ghost predicate FirstMostCommonAt<T>(s: seq<T>, k: int)
  {
    && 0 <= k < |s|
    && (forall j :: 0 <= j < |s| ==> Count(s, s[j]) <= Count(s, s[k]))
    && (forall j :: 0 <= j < k ==> Count(s, s[j]) < Count(s, s[k]))
  }

  /** The scan of `max(counter.items(), key=count)`: the leader is replaced
      only by a strictly larger count, so the first maximal value stays. */
  function ScanFrom<T(==)>(s: seq<T>, i: nat, best: nat): (k: nat)
    requires best < i <= |s|
    requires forall j :: 0 <= j < i ==> Count(s, s[j]) <= Count(s, s[best])
    requires forall j :: 0 <= j < best ==> Count(s, s[j]) < Count(s, s[best])
    ensures FirstMostCommonAt(s, k)
    decreases |s| - i
  {
    if i == |s| then best
    else if Count(s, s[i]) > Count(s, s[best]) then ScanFrom(s, i + 1, i)
    else ScanFrom(s, i + 1, best)
  }

  /** `majority_vote_cn(votes)`, given the dictionary's values in insertion
      order: ("无人", 0) for no ballots, otherwise the first-seen ballot of
      highest multiplicity together with that multiplicity. */
  function MajorityVote(votes: seq<Ballot>): (r: (Ballot, nat))
    ensures |votes| == 0 ==> r == (Some(NoOne), 0)
    ensures |votes| > 0 ==> r.0 in votes && r.1 == Count(votes, r.0)
    ensures |votes| > 0 ==> forall b :: Count(votes, b) <= r.1
    ensures |votes| > 0 ==> forall j :: 0 <= j < |votes| && Count(votes, votes[j]) == r.1 ==> FirstIndex(votes, r.0) <= j
  {
    if |votes| == 0 then (Some(NoOne), 0)
    else
      var k := ScanFrom(votes, 1, 0);
      MostCommonFacts(votes, k);
      (votes[k], Count(votes, votes[k]))
  }

  lemma MostCommonFacts<T(!new)>(s: seq<T>, k: int)
    requires FirstMostCommonAt(s, k)
    ensures forall b :: Count(s, b) <= Count(s, s[k])
    ensures FirstIndex(s, s[k]) == k
  {
    forall b ensures Count(s, b) <= Count(s, s[k]) {
      CountPositive(s, b);
      if b in s {
        var j :| 0 <= j < |s| && s[j] == b;
      }
    }
    FirstIndexIs(s, k);
  }

  /** The contract of `MajorityVote` pins its result down: any ballot that is
      present, most common, and seen no later than every other most common
      ballot is the winner. */
  lemma MajorityVoteUnique(votes: seq<Ballot>, w: Ballot)
    requires w in votes
    requires forall b :: Count(votes, b) <= Count(votes, w)
    requires forall j :: 0 <= j < |votes| && Count(votes, votes[j]) == Count(votes, w) ==> FirstIndex(votes, w) <= j
    ensures MajorityVote(votes) == (w, Count(votes, w))
  {
    var r := MajorityVote(votes);
    var fw := FirstIndex(votes, w);
    var fr := FirstIndex(votes, r.0);
    assert Count(votes, w) == r.1;
    assert fw <= fr && fr <= fw;
  }

  /** A clear majority: two votes for X beat one for Y. */
  lemma MajorityExample()
    ensures MajorityVote([Some("X"), Some("X"), Some("Y")]) == (Some("X"), 2)
  {
    var v := [Some("X"), Some("X"), Some("Y")];
    assert Count(v, Some("Y")) == 1;
    assert Count(v, Some("X")) == 2;
    MajorityVoteUnique(v, Some("X"));
  }

  /** A one-one tie goes to the ballot cast first. */
  lemma TieGoesToFirstSeen()
    ensures MajorityVote([Some("B"), Some("A")]) == (Some("B"), 1)
  {
    var v := [Some("B"), Some("A")];
    assert Count(v, Some("B")) == 1;
    assert Count(v, Some("A")) == 1;
    assert forall b :: Count(v, b) <= 1;
    MajorityVoteUnique(v, Some("B"));
  }

  /** `None` is not filtered out: two empty ballots beat one named vote. */
  lemma AbsentBallotsCanWin()
    ensures MajorityVote([None, Some("A"), None]) == (None, 2)
  {
    var v: seq<Ballot> := [None, Some("A"), None];
    assert Count(v, None) == 2;
    assert Count(v, Some("A")) == 1;
    MajorityVoteUnique(v, None);
  }
}

=== FILE: win_check.dfy ===
/** `check_winning_cn` (framework-study/AgentScopeDemo/main.py): who has won,
    judged from the roles of the living players. */
module WinCheck {
  import opened Wrappers
  import opened Seqs
  import opened Roles

  /** Players are identified by their display name, which is unique. */
  type Name = string

  /** `roles.get(name, "村民")`: a name without a recorded role is a villager. */
  function RoleOf(roles: map<Name, Role>, p: Name): Role
  {
    if p in roles then roles[p] else Villager
  }

  /** The roles of the living players, in roster order. */
  function AliveRoles(alive: seq<Name>, roles: map<Name, Role>): (r: seq<Role>)
    ensures |r| == |alive|
    ensures forall i :: 0 <= i < |alive| ==> r[i] == RoleOf(roles, alive[i])
  {
    seq(|alive|, i requires 0 <= i < |alive| => RoleOf(roles, alive[i]))
  }

  /** The number of living werewolves, counted one player at a time. */
  function WolfCount(alive: seq<Name>, roles: map<Name, Role>): (n: nat)
    ensures n <= |alive|
  {
    if alive == [] then 0
    else (if RoleOf(roles, alive[0]) == Werewolf then 1 else 0) + WolfCount(alive[1..], roles)
  }

  /** The count agrees with counting werewolves among the living roles. */
  lemma {:induction false} WolfCountIsCount(alive: seq<Name>, roles: map<Name, Role>)
    ensures WolfCount(alive, roles) == Count(AliveRoles(alive, roles), Werewolf)
  {
    if alive != [] {
      WolfCountIsCount(alive[1..], roles);
      assert AliveRoles(alive, roles) == [RoleOf(roles, alive[0])] + AliveRoles(alive[1..], roles);
      CountAppend([RoleOf(roles, alive[0])], AliveRoles(alive[1..], roles), Werewolf);
    }
  }

  /** Some living player is a werewolf. */
  ghost predicate WolfAlive(alive: seq<Name>, roles: map<Name, Role>)
  {
    exists p :: p in alive && RoleOf(roles, p) == Werewolf
  }

  lemma WolfCountPositive(alive: seq<Name>, roles: map<Name, Role>)
    ensures WolfCount(alive, roles) > 0 <==> WolfAlive(alive, roles)
  {
    WolfCountIsCount(alive, roles);
    var rs := AliveRoles(alive, roles);
    CountPositive(rs, Werewolf);
    if Werewolf in rs {
      var i :| 0 <= i < |rs| && rs[i] == Werewolf;
      assert alive[i] in alive;
    }
    if WolfAlive(alive, roles) {
      var p :| p in alive && RoleOf(roles, p) == Werewolf;
      var i :| 0 <= i < |alive| && alive[i] == p;
      assert rs[i] == Werewolf;
    }
  }

  /** `check_winning_cn`: the good team wins once no werewolf lives (checked
      first, so an empty table is a good-team win); the werewolf team wins
      once the living werewolves are at least as many as everybody else;
      otherwise the game goes on. Each verdict is characterised by who is
      alive. */
  function CheckWinning(alive: seq<Name>, roles: map<Name, Role>): (r: Option<Team>)
    ensures r == Some(GoodTeam) <==> !WolfAlive(alive, roles)
    ensures r == Some(WerewolfTeam) <==> WolfAlive(alive, roles) && 2 * WolfCount(alive, roles) >= |alive|
    ensures r == None <==> WolfAlive(alive, roles) && 2 * WolfCount(alive, roles) < |alive|
  {
    WolfCountPositive(alive, roles);
    var wolves := WolfCount(alive, roles);
    var others := |alive| - wolves;
    if wolves == 0 then Some(GoodTeam)
    else if wolves >= others then Some(WerewolfTeam)
    else None
  }

  /** Adding a role-less name to the map as a villager changes nothing. */
  lemma MissingNamesAreVillagers(alive: seq<Name>, roles: map<Name, Role>, p: Name)
    requires p !in roles
    ensures CheckWinning(alive, roles[p := Villager]) == CheckWinning(alive, roles)
  {
    WolfCountFrame(alive, roles, p);
  }

  lemma {:induction false} WolfCountFrame(alive: seq<Name>, roles: map<Name, Role>, p: Name)
    requires p !in roles
    ensures WolfCount(alive, roles[p := Villager]) == WolfCount(alive, roles)
  {
    if alive != [] {
      WolfCountFrame(alive[1..], roles, p);
    }
  }

  /** Nobody alive: the good-team check comes first. */
  lemma EmptyTableIsGoodWin(roles: map<Name, Role>)
    ensures CheckWinning([], roles) == Some(GoodTeam)
  {
  }

  /** Two werewolves against two others is parity: the werewolves win; one
      werewolf against three others lets the game continue. */
  lemma ParityExamples()
    ensures CheckWinning(["a", "b", "c", "d"],
                         map["a" := Werewolf, "b" := Werewolf, "c" := Seer, "d" := Villager])
         == Some(WerewolfTeam)
    ensures CheckWinning(["a", "b", "c", "d"],
                         map["a" := Werewolf, "b" := Witch, "c" := Seer, "d" := Villager])
         == None
  {
  }
}

=== FILE: wrappers.dfy ===
/** The optional value and the result-or-error type, used by the werewolf
    modules and by the reflection memory. */
module Wrappers {

  /** An optional value; stands for Python's `None` where the source returns one. */
  datatype Option<+T> = None | Some(value: T)

  /** A value or an error; stands for an operation that can raise. */
  datatype Result<+T, +E> = Ok(value: T) | Err(error: E)
}
